=== FILE: README.md ===
# Pokédex catalogue and per-user collections — a Dafny model

The system is a Pokémon catalogue with accounts. An Angular front end lists pokemon page by page, filters them by type and generation, and searches them by name. A signed-in user can mark pokemon as favourites (`favorito`) or as members of a battle team (`grupoBatalha`). A Django REST back end proxies PokeAPI and stores the per-user marks.

This project models the logic of that core as pure Dafny functions over immutable data:

- `Text` (text.dfy) holds the small pieces of JavaScript and Python semantics the core relies on:
  - decimal digits;
  - the two languages' whitespace sets and `trim`/`strip`;
  - `toLowerCase`;
  - `Number(string)` as a `JsNumber` that may be NaN;
  - Python's `int(str)` as a `Result`, with the whitespace it skips and its digit cap;
  - `rstrip('/')` and taking the last path segment.
- `PokemonService` (service.dfy) holds the browser's data service:
  - `mapToPokemon`;
  - which request each listing call issues, or the value it answers without one;
  - how each response, or failure, becomes what the components see;
  - the drop-down lists;
  - the record lookup;
  - the create/patch/delete decision of a favourite or team toggle.
- `UserStore` (user_store.dfy) applies a toggle's request to one user's records, keyed by `codigo`. It proves what a toggle does to them. It assumes the lookup before a toggle sees only the requesting user's records. That holds for the corrected listing `Views.ListOwnRows`, not for the listing as written (see Findings).
- `Home` (home.dfy) models the home page's state machine:
  - pagination;
  - the precedence of search, combined filter and plain listing;
  - the drop-downs;
  - response handling;
  - the offset invariant over every sequence of events.
- `Auth` (auth.dfy) covers the token in browser storage, `getLoggedInUser` and the route guard.
- `UserLists` (user_lists.dfy) covers the favourites and team pages.
- `Views` (views.dfy) covers the Django views:
  - the `retrieve` projection;
  - the `types` id parsing;
  - the permission rule of each view set;
  - owner assignment on create;
  - the per-user listing.

HTTP, storage, the JWT library and the database are not called. A request is described by its URL, by an `Action` value or, on the home page, by a `Request` value standing for the service call of the same name, and a response is an input, `Http<T>` or `Fetched<T>`. Browser storage is a `map<string, string>`. JWT decoding is a function parameter.

## Model

| member | source | states |
|---|---|---|
| Text.StringToNumber | Frontend/src/app/services/pokemon.service.ts:61 | `Number(s)`: a string that trims to nothing is 0; together with StringToNumberOfIntToString, every integer's decimal spelling reads back as that integer |
| Text.StringToNumberOfIntToString | Frontend/src/app/components/favorites/favorites.ts:48 | `Number(String(n)) == n` for every integer `n`: the round trip the card id relies on |
| Text.PyInt | Backend/poke/views.py:53 | `int(s)` succeeds exactly when, after the whitespace `int()` skips, an optionally signed digit string of at most 4300 digits remains; a blank string never succeeds |
| Text.PyIntOfIntToString | Backend/poke/views.py:53 | `int(str(n))` succeeds exactly when `n` has at most 4300 digits, and then gives back `n` |
| Text.PyIntRejectsInformationSeparator | Backend/poke/views.py:53 | a digit next to one of U+001C..U+001F makes `int()` raise, although `str.strip()` treats those as whitespace |
| Text.BlankIffAllSpace | Frontend/src/app/components/home/home.ts:68 | `s.trim()` is empty exactly when every character of `s` is whitespace |
| Text.LowerKeepsBlank | Frontend/src/app/services/pokemon.service.ts:152-153 | lower-casing does not change whether a name trims to nothing |
| Text.RStripSlashes | Backend/poke/views.py:53 | `rstrip("/")` removes exactly the trailing slashes of a URL whose body does not end in one |
| Text.LastSegmentAfterSlash | Backend/poke/views.py:53 | `split("/")[-1]` of `prefix + "/" + seg` is `seg` when `seg` has no slash |
| PokemonService.LastUrlSegment | Frontend/src/app/services/pokemon.service.ts:61 | `split('/').filter(Boolean).pop()` is undefined exactly when the URL holds nothing but slashes; otherwise it is the URL's last non-empty segment: slash-free, followed only by slashes and preceded by a slash or nothing |
| PokemonService.RawId | Frontend/src/app/services/pokemon.service.ts:61 | a truthy `id` wins; otherwise a non-empty `codigo` is read with `Number`; otherwise the id is `Number` of the URL's last segment, and it is NaN exactly when there is no URL segment or the segment is not a number |
| PokemonService.MapToPokemon | Frontend/src/app/services/pokemon.service.ts:60-78 | id from `id`, then `codigo`, then the URL; types from the first array field; the name falls back from `nome` to `name` to "Pokemon <id>", so it is never empty; the image falls back to the official artwork URL `<id>.png` |
| PokemonService.IdFromCodigo | Frontend/src/app/services/pokemon.service.ts:61 | without an `id`, a `codigo` spelling `n` gives the card id `n` |
| PokemonService.IdFromResourceUrl | Frontend/src/app/services/pokemon.service.ts:61 | without `id` and `codigo`, a resource URL `.../<n>/` with any number of trailing slashes gives the id `n` |
| PokemonService.PageCall | Frontend/src/app/services/pokemon.service.ts:87-88 | the page listing has no sentinel: it always issues a request |
| PokemonService.MapPageResults | Frontend/src/app/services/pokemon.service.ts:91-94 | each page result is mapped in order with its types dropped |
| PokemonService.PageResponse | Frontend/src/app/services/pokemon.service.ts:87-98 | a failure is an empty page with no links; a delivered page keeps both links, treats a missing `results` as empty and maps every result without types |
| PokemonService.MapResults | Frontend/src/app/services/pokemon.service.ts:106 | results are mapped one to one, in order, with their types |
| PokemonService.ListResponse | Frontend/src/app/services/pokemon.service.ts:105-108 | a failure is the empty list; otherwise each result, with a missing `results` read as none, is mapped in order |
| PokemonService.SingleResponse | Frontend/src/app/services/pokemon.service.ts:155-158 | null exactly when the request failed, otherwise the mapped pokemon |
| PokemonService.GenerationCall | Frontend/src/app/services/pokemon.service.ts:100-109 | generation 0 answers `[]` without a request, and only generation 0 does; others request the generation filter for that id |
| PokemonService.TypeCall | Frontend/src/app/services/pokemon.service.ts:111-120 | type 0 answers `[]` without a request, and only type 0 does; others request the type filter for that id |
| PokemonService.CombinedCall | Frontend/src/app/services/pokemon.service.ts:122-129 | the combined filter has no sentinel: ids 0/0 still issue a request |
| PokemonService.SearchCall | Frontend/src/app/services/pokemon.service.ts:151-159 | a name blank after trimming answers null without a request, and only such a name does; otherwise the lower-cased, trimmed name is queried |
| PokemonService.TiposResponse | Frontend/src/app/services/pokemon.service.ts:131-136 | a failure or a missing `tipos` gives no types; otherwise the server's list unchanged |
| PokemonService.GenerationEntries | Frontend/src/app/services/pokemon.service.ts:141-144 | one entry per server generation, same id, label "Geração <id>" |
| PokemonService.GenerationsResponse | Frontend/src/app/services/pokemon.service.ts:138-149 | a delivered list starts with `{0, "Todas"}` followed by one labelled entry per generation; a failure is the empty list, without "Todas" |
| PokemonService.FindRecord | Frontend/src/app/services/pokemon.service.ts:166 | null exactly when no record has the codigo; otherwise the first record that has it |
| PokemonService.UserRecordResponse | Frontend/src/app/services/pokemon.service.ts:161-172 | a failed request is null; a delivered list gives its first record with the codigo, or null when none has it |
| PokemonService.ToggleAction | Frontend/src/app/services/pokemon.service.ts:174-211 | no record: POST with the targeted flag true and the other false; a record whose other flag is clear and whose targeted flag is set: DELETE by id; otherwise PATCH by id with the targeted flag flipped and the other flag left out; display fields come from the card |
| PokemonService.ToggleIgnoresDataFlags | Frontend/src/app/services/pokemon.service.ts:181-196 | the optional flags the card passes never influence the action; only the record's flags do |
| UserStore.Lookup | Frontend/src/app/services/pokemon.service.ts:161-172 | the record lookup against a codigo-keyed store: present exactly when stored |
| UserStore.Apply | Frontend/src/app/services/pokemon.service.ts:199-209 | POST adds a record under its codigo with the server's fresh id and the body's fields, a flag missing from the body being false (Backend/poke/models.py:72-73), and leaves every other codigo alone; PATCH keeps the set of records and gives the record with that id the body's display fields and the flags the body carries, the others kept; DELETE removes exactly the record with that id; records with other ids are untouched |
| UserStore.Toggle | Frontend/src/app/services/pokemon.service.ts:174-211 | over the requesting user's own records (the corrected listing, `Views.ListOwnRows`): on a well-formed store the result is well-formed; the targeted flag flips and the other is kept; the record exists exactly when a flag is set; its display fields are the card's; every other pokemon's record is unchanged |
| UserStore.ToggleKeepsNoDeadRecords | Frontend/src/app/services/pokemon.service.ts:198-199 | a toggle never leaves a record with both flags clear |
| UserStore.ToggleTwiceRestores | Frontend/src/app/services/pokemon.service.ts:174-211 | toggling the same flag twice restores the pokemon's flags, or its absence, and all other records |
| UserStore.ToggleTwiceDropsDeadRecord | Frontend/src/app/services/pokemon.service.ts:193-209 | without the no-dead-records invariant the double toggle is not the identity: an all-clear record is patched, then deleted |
| UserStore.FindRecordAgreesWithStore | Frontend/src/app/services/pokemon.service.ts:166 | when the server lists exactly the stored records, in any order, the first-match lookup equals the store lookup |
| Home.PageArithmetic | Frontend/src/app/components/home/home.ts:111-125 | moving one page forward or back keeps the offset at the page's start, and a non-negative offset means page ≥ 1 |
| Home.LoadPokemons | Frontend/src/app/components/home/home.ts:64-94 | a non-blank search term wins and searches the trimmed term; else a type or generation selection requests the combined filter and clears the term; else the current page is requested |
| Home.LoadCombinedFilter | Frontend/src/app/components/home/home.ts:139-165 | always clears the term; with both selectors on 0 it returns to page 1 and requests offset 0; otherwise it requests the combined filter (generation, type) |
| Home.FilterByName | Frontend/src/app/components/home/home.ts:167-194 | a blank term resets both selectors and the pagination and requests the first page; otherwise it requests the trimmed term and changes nothing yet |
| Home.FilterByType | Frontend/src/app/components/home/home.ts:129-132 | the term is cleared; the request is the first page or the combined filter, according to the selectors |
| Home.FilterByGeneration | Frontend/src/app/components/home/home.ts:134-137 | the term is cleared; the request is the first page or the combined filter, according to the selectors |
| Home.FilterByTypeIgnoresArgument | Frontend/src/app/components/home/home.ts:129-137 | `filterByType`'s argument is unused: every id, and `filterByGeneration`, give the same transition |
| Home.DispatchKeepsValid | Frontend/src/app/components/home/home.ts:64-194 | listing, combined filter and name search keep the offset invariant |
| Home.NameSearchTermNotBlank | Frontend/src/app/components/home/home.ts:168-180 | the term sent to the name search is never blank |
| Home.Next | Frontend/src/app/components/home/home.ts:111-117 | without a truthy next link nothing happens; with one the offset advances by the page size and the page number by one, whatever the search or filter state, and a request is always issued; on a plain listing it is the next page's |
| Home.Previous | Frontend/src/app/components/home/home.ts:119-125 | without a truthy previous link or with offset below the limit nothing happens; otherwise the offset goes back by the page size and the page number by one, whatever the search or filter state, and a request is always issued; on a plain listing it is the previous page's |
| Home.NextKeepsValid | Frontend/src/app/components/home/home.ts:111-117 | `next` keeps offset = (page − 1) · limit |
| Home.PreviousKeepsValid | Frontend/src/app/components/home/home.ts:119-125 | `previous` keeps offset = (page − 1) · limit, so the offset never goes negative |
| Home.NextThenPrevious | Frontend/src/app/components/home/home.ts:111-125 | forward, then a page arriving with a previous link, then back requests the original page again |
| Home.OnPage | Frontend/src/app/components/home/home.ts:85-91 | a page replaces the list and both links; the pagination, the term, the selectors and both drop-downs are kept |
| Home.OnCombined | Frontend/src/app/components/home/home.ts:157-162 | a combined result replaces the list and disables both links; the pagination, the term, the selectors and both drop-downs are kept |
| Home.OnName | Frontend/src/app/components/home/home.ts:185-191 | a search result shows one pokemon or none, disables paging and resets both selectors; the pagination, the term and both drop-downs are kept |
| Home.NoPagingAfterFilterResult | Frontend/src/app/components/home/home.ts:111-125 | after a filter or search result, `next` and `previous` do nothing |
| Home.OnTypes | Frontend/src/app/components/home/home.ts:100-102 | the type drop-down is `{0, "Todos"}` followed by the fetched types; the list, the links, the pagination, the term, the selectors and the generation drop-down are kept |
| Home.OnGenerations | Frontend/src/app/components/home/home.ts:104-106 | the generation drop-down is the service's list as given; the list, the links, the pagination, the term, the selectors and the type drop-down are kept |
| Home.FiltersAfterLoad | Frontend/src/app/components/home/home.ts:99-107 | "Todos" always heads the types; "Todas" heads the generations exactly when their request succeeded, and a failure leaves them empty |
| Home.Start | Frontend/src/app/components/home/home.ts:48-59 | start-up is the initial state: page 1, offset 0, page size 20, both selectors 0 and an empty term, which satisfies the offset invariant; it requests the types, the generations, then page 0 of size 20 |
| Home.CallStep | Frontend/src/app/components/home/home.ts:64-194 | `loadPokemons`, the filter methods and `filterByName` always issue a request; no method changes the page size |
| Home.ResponseStep | Frontend/src/app/components/home/home.ts:85-106 | a response issues no request and keeps the page size, the pagination and the search term; every response but a search result keeps both selectors |
| Home.ResponseKeepsNextLoad | Frontend/src/app/components/home/home.ts:64-106 | a response other than a search result never changes what the next `loadPokemons()` requests |
| Home.Handle | Frontend/src/app/components/home/home.ts:30-194 | edits and responses issue no request, the loading and filter methods always issue one, and the page size never changes |
| Home.EditsChangeOnlyTheirField | Frontend/src/app/components/home/home.ts:44-46 | editing the search term or a selector changes only that field and loads nothing |
| Home.Run | Frontend/src/app/components/home/home.ts:30-194 | over any sequence of events the page size stays as it was; responses alone never move the pagination or the search term |
| Home.HandleKeepsValid | Frontend/src/app/components/home/home.ts:30-194 | every edit, method call and response keeps the offset invariant |
| Home.RunKeepsValid | Frontend/src/app/components/home/home.ts:30-194 | every sequence of events keeps the offset invariant |
| Home.PagesStayPositive | Frontend/src/app/components/home/home.ts:34-36 | from start-up, whatever happens, the page number stays ≥ 1 and the offset ≥ 0 |
| Auth.GetToken | Frontend/src/app/services/auth.service.ts:33-35 | the stored token, or null exactly when none is stored |
| Auth.SetToken | Frontend/src/app/services/auth.service.ts:29-31 | the next `getToken` returns the token, which is truthy exactly when non-empty; no other key changes |
| Auth.Logout | Frontend/src/app/services/auth.service.ts:25-27 | the next `getToken` returns null; no other key changes |
| Auth.Login | Frontend/src/app/services/auth.service.ts:21-23 | builds the token request with the credentials and returns storage unchanged |
| Auth.GetLoggedInUser | Frontend/src/app/services/auth.service.ts:37-49 | a user exactly when a non-empty token is stored and decodes; the user's id is the payload's `user_id` |
| Auth.CanActivate | Frontend/src/app/guards/auth.guard.ts:12-21 | allows exactly when a non-empty token is stored; otherwise navigates to the root route and denies |
| Auth.GuardAfterSetToken | Frontend/src/app/guards/auth.guard.ts:12-21 | after `setToken(t)` the guard allows exactly when `t` is non-empty |
| Auth.GuardAfterLogout | Frontend/src/app/services/auth.service.ts:25-27 | after `logout` the guard denies and redirects to the root route |
| Auth.LoggedInUserPassesGuard | Frontend/src/app/services/auth.service.ts:37-49 | whoever `getLoggedInUser` recognises passes the guard, for every decoder |
| Auth.SetThenLogoutRestoresOtherKeys | Frontend/src/app/services/auth.service.ts:25-31 | set-then-logout leaves the other keys alone, and restores storage entirely when it had no token |
| UserLists.Card | Frontend/src/app/components/favorites/favorites.ts:47-52 | a card's id is `Number(codigo)`; it carries the record's name and image and no types |
| UserLists.CardIdFromCodigo | Frontend/src/app/components/favorites/favorites.ts:48 | a codigo spelling `n` gives the card id `n` |
| UserLists.FavoritesFrom | Frontend/src/app/components/favorites/favorites.ts:45-52 | filtering never yields more cards than records |
| UserLists.FavoriteCards | Frontend/src/app/components/favorites/favorites.ts:45-52 | the favourites list has at most one card per record |
| UserLists.FavoritePositions | Frontend/src/app/components/favorites/favorites.ts:46 | the positions of exactly the favourite records, increasing |
| UserLists.FavoritesFromAtPositions | Frontend/src/app/components/favorites/favorites.ts:45-52 | card `k` of the filtered list is the card of the `k`-th favourite record |
| UserLists.FavoriteCardsExactly | Frontend/src/app/components/favorites/favorites.ts:45-52 | the favourites page shows exactly the favourite records' cards, in their original order |
| UserLists.NoFavoritesNoCards | Frontend/src/app/components/favorites/favorites.ts:46 | no favourite record means no card |
| UserLists.AllFavoritesAllCards | Frontend/src/app/components/favorites/favorites.ts:45-52 | when every record is a favourite, the favourites page equals the team page's unfiltered list |
| UserLists.TeamCards | Frontend/src/app/components/team/team.ts:49-54 | one card per record, in order, with no filtering |
| UserLists.LoadsOnlyForDecodedUser | Frontend/src/app/components/favorites/favorites.ts:26-35 | records load exactly when a non-empty token decodes to a non-zero `user_id`, and then the guard allows too |
| UserLists.PageLogout | Frontend/src/app/components/team/team.ts:60-63 | the token is gone, the guard denies, and the page is replaced by the root route |
| Views.TypeNames | Backend/poke/views.py:25 | the type names, one per slot, in PokeAPI's order |
| Views.RetrieveUrl | Backend/poke/views.py:16 | the upstream URL is the pokemon endpoint followed by the key, letter by letter lower-cased |
| Views.RetrieveUrlIgnoresCase | Backend/poke/views.py:16 | keys that differ only in ASCII letter case fetch the same URL |
| Views.Retrieve | Backend/poke/views.py:14-29 | the pokemon is fetched from `RetrieveUrl(pk)`; a failed request is a 400 carrying its message; otherwise `name`→`nome`, `id`, `sprites` copied, `tipos` the type names in order |
| Views.TypeId | Backend/poke/views.py:53 | a URL of nothing but slashes has an empty last segment, on which `int()` raises |
| Views.TypeIdOfResourceUrl | Backend/poke/views.py:53 | a resource URL `<prefix>/<n>/` with any number of trailing slashes parses to `n`, exactly when `n` has at most 4300 digits |
| Views.ParseUrls | Backend/poke/views.py:51-57 | the parse is applied to every result's URL, in order |
| Views.Collect | Backend/poke/views.py:51-57 | succeeds exactly when every id parses, pairing each id with its name in order |
| Views.Tipos | Backend/poke/views.py:51-57 | the comprehension succeeds exactly when every URL's id parses; then one entry per result, in order, name copied, id parsed from the URL |
| Views.TiposOfResourceUrls | Backend/poke/views.py:51-57 | PokeAPI type resource URLs succeed exactly when every id is within the 4300-digit cap, and then yield exactly their ids, names kept |
| Views.TiposView | Backend/poke/views.py:42-58 | a failed upstream request is a 400; otherwise success exactly when every id parses, and an unparsable id is a 500 |
| Views.Permissions | Backend/poke/views.py:60-82 | each view set applies exactly one permission class to an action |
| Views.AnonymousAccess | Backend/poke/views.py:60-82 | anonymous requests reach only the PokeAPI proxy and the user `create` and `list` actions; authenticated requests reach everything |
| Views.PerformCreate | Backend/poke/views.py:81-82 | the new row belongs to the requesting user whatever the body says; missing flags default to false |
| Views.ListRowsAsWritten | Backend/poke/views.py:76-79 | the per-user records listing returns every row of the table, whoever owns it and whoever asks |
| Views.ListOwnRows | Backend/poke/views.py:76-79 | the scoped listing returns exactly the requesting user's rows |
| Views.AsRecord | Backend/poke/serializers.py:33-39 | a serialized row carries its id, codigo, both flags, its name and its image URL, a null image reading as the empty string |
| Views.AsRecords | Backend/poke/serializers.py:33-39 | each listed row is serialized in order |
| Views.LookupFindsOtherUsersRecord | Backend/poke/views.py:76-79 | with the unscoped listing, user 1's lookup finds user 2's record, and the toggle would then delete it |
| Views.LookupFindsOwnRecord | Backend/poke/views.py:76-79 | with the scoped listing, every record the lookup finds belongs to the requesting user |

## Left out

- HTTP, rxjs and the `loading` flag are not modelled. Responses are separate events that may arrive in any order, and a stale response is applied like any other. `finalize` and console logging are not modelled.
- The `Authorization: Token …` header is not modelled. The back end authenticates with JWT bearer tokens, so the header scheme and the authentication itself are not part of this model.
- JWT decoding (`jwtDecode`) is a function parameter. Signature and expiry are not modelled.
- `Number(string)` covers only blank strings and optionally signed ASCII digits, with surrounding whitespace. Decimals, exponents, hex, binary, octal and `Infinity` are not modelled: the model reads them as NaN.
- Printing integers of 1e21 and above, which JavaScript writes in exponent form, is not modelled.
- Python `int(str)` covers only optionally signed ASCII digits, with the default 4300-digit cap. Underscore separators, non-ASCII digits and a cap changed with `sys.set_int_max_str_digits` are not modelled.
- Text.StringToNumber: reads a digit string back as the exact integer. JavaScript rounds to the nearest double, so integers beyond 2^53 are not modelled faithfully. Home's offset arithmetic is likewise exact past that range.
- `toLowerCase` and Python's `lower()` are modelled on ASCII letters only.
- `getPokemonDetails` and the `list` proxy view are not modelled. Each only passes a response through: the first maps it with `mapToPokemon`, which is modelled, and the second returns PokeAPI's body unchanged.
- The toggle's request URLs are abstracted to record ids inside `Action`.
- UserStore keys a user's records by `codigo`, so it assumes at most one record per codigo. The server does not enforce that, and FindRecord models which duplicate the browser would pick.
- The favourites and team pages call `getUsersPokemon`, which the service does not define. Their record list is an input.
- The team page does not filter on `grupoBatalha`: TeamCards keeps every record it is given, as the code does.
- The server endpoints `filter-generation`, `filter-type`, `filter-combined`, `search-name` and `generations` have no view in views.py. Only the browser's side of those calls is modelled.
- home.html is not part of this model. Its two-way bindings are modelled as the `Edit*` events.
- Django's ORM, serializer validation, settings, the user model's password hashing, the login form's validators and the components without logic (navbar, card, routes) are not modelled.
- PokemonService.PageCall: states only that a request is always issued. The query string's exact form is not stated.
- PokemonService.CombinedCall: states only that a request is always issued, even for ids 0/0. The query string's exact form is not stated.
- Views.Permissions: states the count of permission classes per action. Which class applies is stated by Views.AnonymousAccess.
- Views.AsRecord: a missing `imagemUrl` (JSON null) reads as the empty string in the browser's record. The row owner, which the serializer renders as a string, is not carried.
- The pokemon record's `tipos` many-to-many relation is not modelled.
- UserStore.Toggle: its guarantees assume the browser's lookup sees only the requesting user's records, as the corrected `Views.ListOwnRows` gives. With the listing as written (Backend/poke/views.py:77), the lookup can find another user's record; `Views.LookupFindsOtherUsersRecord` shows a toggle that then deletes another user's row. The same assumption holds for `UserStore.ToggleTwiceRestores`. See the Findings row.

A record update carries only the targeted flag: the PATCH body holds the display fields and the flag being toggled (Frontend/src/app/services/pokemon.service.ts:184-190, 201). A creation carries both flags, the other one set to `false` (Frontend/src/app/services/pokemon.service.ts:206-209).

## Findings

| source | as written | input that shows it | evidently intended | confidence | as-written member | corrected member |
|---|---|---|---|---|---|---|
| Backend/poke/views.py:76-79 | `PokemonUsuarioViewSet` lists `PokemonUsuario.objects.all()`: every user's records. No filter backend is configured, so `?codigo=` is ignored too | user 1 sends `GET ?codigo=25` with a valid `Bearer` token while the only row with that codigo is user 2's favourite. The listing returns it, and a client running the browser's lookup and toggle logic sends DELETE for that row. The browser itself reaches this only once its `Token` header is changed to the `Bearer` scheme the back end accepts (Backend/core/settings.py:43-47); as written its requests are anonymous and refused | list only the requesting user's rows, as `perform_create` assigns them | medium, not executed | Views.LookupFindsOtherUsersRecord | Views.LookupFindsOwnRecord |

=== FILE: auth.dfy ===
/**
 * The browser's `AuthService` and `AuthGuard`. Browser storage is a
 * string map; the token lives under the key "token". JWT decoding is an
 * opaque partial function supplied by the caller. A token counts as
 * present only when it is a non-empty string, as JavaScript's truthiness
 * checks make it.
 */
module Auth {
  import opened Wrappers

  /** The browser's `localStorage`. */
  type Storage = map<string, string>

  const TokenKey: string := "token"
  const TokenUrl: string := "http://127.0.0.1:8000/api/token/"

  /** `getToken()`: the stored token, or null. */
  function GetToken(st: Storage): (t: Option<string>)
    ensures t.None? <==> TokenKey !in st
    ensures t.Some? ==> t.value == st[TokenKey]
  {
    if TokenKey in st then Some(st[TokenKey]) else None
  }

  /** A truthy stored token: present and not the empty string. */
  predicate HasToken(st: Storage) {
    TokenKey in st && |st[TokenKey]| > 0
  }

  /** Every key but the token's holds the same value in both stores. */
  ghost predicate SameOtherKeys(st: Storage, st': Storage) {
    forall k :: k != TokenKey ==> (k in st' <==> k in st) && (k in st ==> st'[k] == st[k])
  }

  /** `setToken(t)`: the next `getToken()` returns `t`; nothing else in storage changes. */
  function SetToken(st: Storage, t: string): (st': Storage)
    ensures GetToken(st') == Some(t)
    ensures HasToken(st') <==> |t| > 0
    ensures SameOtherKeys(st, st')
  {
    st[TokenKey := t]
  }

  /** `logout()`: the next `getToken()` returns null; nothing else in storage changes. */
  function Logout(st: Storage): (st': Storage)
    ensures GetToken(st') == None && !HasToken(st')
    ensures SameOtherKeys(st, st')
  {
    st - {TokenKey}
  }

  /** The body `login(login, password)` posts to the token endpoint. */
  datatype LoginRequest = LoginRequest(url: string, login: string, password: string)

  /** `login(login, password)` only builds its request; storage comes back as it was. */
  function Login(st: Storage, login: string, password: string): (r: (Storage, LoginRequest))
    ensures r.0 == st && GetToken(r.0) == GetToken(st)
    ensures r.1.url == TokenUrl && r.1.login == login && r.1.password == password
  {
    (st, LoginRequest(TokenUrl, login, password))
  }

  /** What `jwtDecode` makes of a token: it throws, or yields a payload whose `user_id` may be missing. */
  datatype Jwt = Undecodable | Payload(userId: Option<int>)

  /** The logged-in user; `id` is undefined when the payload has no `user_id`. */
  datatype User = User(id: Option<int>)

  /**
   * `getLoggedInUser()`: null without a (non-empty) token or when decoding
   * throws; otherwise the payload's `user_id` as the user's id.
   */
  function GetLoggedInUser(st: Storage, decode: string -> Jwt): (u: Option<User>)
    ensures u.Some? <==> HasToken(st) && decode(st[TokenKey]).Payload?
    ensures u.Some? ==> u.value.id == decode(st[TokenKey]).userId
  {
    match GetToken(st)
    case Some(token) =>
      if |token| > 0 then
        match decode(token)
        case Payload(userId) => Some(User(userId))
        case Undecodable => None
      else None
    case None => None
  }

  /** The guard's answer and the navigation it requests. */
  datatype GuardResult = GuardResult(allowed: bool, navigateTo: Option<string>)

  /**
   * `AuthGuard.canActivate()`: allow exactly when a non-empty token is
   * stored; otherwise navigate to the root route and deny. It only reads
   * storage.
   */
  function CanActivate(st: Storage): (g: GuardResult)
    ensures g.allowed <==> HasToken(st)
    ensures !g.allowed ==> g.navigateTo == Some("")
    ensures g.allowed ==> g.navigateTo.None?
  {
    match GetToken(st)
    case Some(token) => if |token| > 0 then GuardResult(true, None) else GuardResult(false, Some(""))
    case None => GuardResult(false, Some(""))
  }

  /** After `setToken(t)` the guard admits exactly when `t` is non-empty. */
  lemma GuardAfterSetToken(st: Storage, t: string)
    ensures CanActivate(SetToken(st, t)).allowed <==> t != ""
  {
  }

  /** After `logout()` the guard denies and redirects to the root route. */
  lemma GuardAfterLogout(st: Storage)
    ensures CanActivate(Logout(st)) == GuardResult(false, Some(""))
  {
  }

  /** Whoever `getLoggedInUser` recognises also passes the guard, whatever the decoder does. */
  lemma LoggedInUserPassesGuard(st: Storage, decode: string -> Jwt)
    ensures GetLoggedInUser(st, decode).Some? ==> CanActivate(st).allowed
  {
  }

  /** Logging in and logging out leave the rest of storage as it was. */
  lemma SetThenLogoutRestoresOtherKeys(st: Storage, t: string)
    ensures SameOtherKeys(st, Logout(SetToken(st, t)))
    ensures TokenKey !in st ==> Logout(SetToken(st, t)) == st
  {
  }
}

=== FILE: home.dfy ===
/**
 * The home page's listing state: pagination, filter selectors and search
 * term, the list shown, and the drop-down options. Each public method of
 * the component is a transition that may issue one request; a response
 * arriving is a separate transition. The `loading` flag is not modelled.
 */
module Home {
  import opened Wrappers
  import opened Text
  import opened PokemonService

  /** The page size the component starts with and never changes. */
  const PageSize: int := 20

  datatype HomeState = HomeState(
    pokemons: seq<Pokemon>,
    currentPage: int,
    offset: int,
    limit: int,
    nextPage: Option<string>,
    prevPage: Option<string>,
    types: seq<Named>,
    generations: seq<Named>,
    selectedType: int,
    selectedGeneration: int,
    searchTerm: string)

  /** The service call a transition starts. */
  datatype Request =
    | FetchPage(offset: int, limit: int)
    | FetchCombined(genId: int, typeId: int)
    | FetchByName(term: string)
    | FetchTypes
    | FetchGenerations

  /** A transition that always issues exactly one request. */
  datatype Dispatch = Dispatch(state: HomeState, request: Request)

  /** A transition that may issue one request. */
  datatype Step = Step(state: HomeState, request: Option<Request>)

  /** The fields as the component declares them. */
  function Initial(): HomeState {
    HomeState([], 1, 0, PageSize, None, None, [], [], 0, 0, "")
  }

  /** The pagination invariant: the offset is the start of the current page. */
  predicate Valid(s: HomeState) {
    s.limit > 0 && s.offset >= 0 && s.offset == (s.currentPage - 1) * s.limit
  }

  /** Moving one page either way keeps the offset at the start of the page. */
  lemma PageArithmetic(offset: int, page: int, limit: int)
    requires limit > 0 && offset == (page - 1) * limit
    ensures offset + limit == page * limit
    ensures offset - limit == (page - 2) * limit
    ensures offset >= 0 ==> page >= 1
  {
    if page < 1 {
      assert (page - 1) * limit <= -limit by {
        assert (1 - page) * limit >= limit;
      }
    }
  }

  /** Both selectors on their "all" entry (id 0). */
  predicate NoSelection(s: HomeState) {
    s.selectedType == 0 && s.selectedGeneration == 0
  }

  /** A search term that trims to nothing. */
  predicate BlankTerm(s: HomeState) {
    IsBlank(s.searchTerm, JsWhitespace)
  }

  /** Back to the first page. */
  function FirstPage(s: HomeState): HomeState {
    s.(offset := 0, currentPage := 1)
  }

  // ---------------------------------------------------------------------
  // loadPokemons / loadCombinedFilter / filterByName
  // ---------------------------------------------------------------------

  /**
   * `loadPokemons`: a non-blank search term wins and searches by name;
   * otherwise a type or generation selection loads the combined filter
   * (which clears the term); otherwise the current page is listed.
   */
  function LoadPokemons(s: HomeState): (d: Dispatch)
    ensures d.state.limit == s.limit
    decreases if BlankTerm(s) && NoSelection(s) then 0 else 2
    ensures !BlankTerm(s) ==> d == Dispatch(s, FetchByName(Trim(s.searchTerm, JsWhitespace)))
    ensures BlankTerm(s) && !NoSelection(s) ==>
      d == Dispatch(s.(searchTerm := ""), FetchCombined(s.selectedGeneration, s.selectedType))
    ensures BlankTerm(s) && NoSelection(s) ==> d == Dispatch(s, FetchPage(s.offset, s.limit))
  {
    if !BlankTerm(s) then FilterByName(s)
    else if !NoSelection(s) then LoadCombinedFilter(s)
    else Dispatch(s, FetchPage(s.offset, s.limit))
  }

  /**
   * `loadCombinedFilter`: clears the search term; with both selectors on
   * "all" it returns to the first page of the plain listing, otherwise it
   * requests the combined filter. Only the search term and, in the first
   * case, the pagination change.
   */
  function LoadCombinedFilter(s: HomeState): (d: Dispatch)
    ensures d.state.limit == s.limit
    decreases 1
    ensures d.state.searchTerm == ""
    ensures NoSelection(s) ==>
      d == Dispatch(FirstPage(s).(searchTerm := ""), FetchPage(0, s.limit))
    ensures !NoSelection(s) ==>
      d == Dispatch(s.(searchTerm := ""), FetchCombined(s.selectedGeneration, s.selectedType))
  {
    var cleared := s.(searchTerm := "");
    if NoSelection(cleared) then
      assert BlankTerm(FirstPage(cleared));
      LoadPokemons(FirstPage(cleared))
    else
      Dispatch(cleared, FetchCombined(s.selectedGeneration, s.selectedType))
  }

  /**
   * `filterByName`: a blank term resets both selectors and the pagination
   * and lists the first page; otherwise it searches for the trimmed term
   * and changes nothing yet.
   */
  function FilterByName(s: HomeState): (d: Dispatch)
    ensures d.state.limit == s.limit
    decreases 1
    ensures BlankTerm(s) ==>
      d == Dispatch(FirstPage(s).(selectedType := 0, selectedGeneration := 0), FetchPage(0, s.limit))
    ensures !BlankTerm(s) ==> d == Dispatch(s, FetchByName(Trim(s.searchTerm, JsWhitespace)))
  {
    var term := Trim(s.searchTerm, JsWhitespace);
    if |term| == 0 then
      LoadPokemons(FirstPage(s).(selectedType := 0, selectedGeneration := 0))
    else
      Dispatch(s, FetchByName(term))
  }

  /** `filterByType(typeId)`: the argument is not used; the bound selector is what counts. */
  function FilterByType(s: HomeState, typeId: int): (d: Dispatch)
    ensures d.state.limit == s.limit
    ensures d.state.searchTerm == ""
    ensures NoSelection(s) ==> d.request == FetchPage(0, s.limit) && d.state.offset == 0 && d.state.currentPage == 1
    ensures !NoSelection(s) ==> d.request == FetchCombined(s.selectedGeneration, s.selectedType)
  {
    LoadCombinedFilter(s)
  }

  /** `filterByGeneration()`. */
  function FilterByGeneration(s: HomeState): (d: Dispatch)
    ensures d.state.limit == s.limit
    ensures d.state.searchTerm == ""
    ensures NoSelection(s) ==> d.request == FetchPage(0, s.limit) && d.state.offset == 0 && d.state.currentPage == 1
    ensures !NoSelection(s) ==> d.request == FetchCombined(s.selectedGeneration, s.selectedType)
  {
    LoadCombinedFilter(s)
  }

  /** Whatever id `filterByType` is passed, the type filter applied is the selector's. */
  lemma FilterByTypeIgnoresArgument(s: HomeState, a: int, b: int)
    ensures FilterByType(s, a) == FilterByType(s, b)
    ensures FilterByType(s, a) == FilterByGeneration(s)
  {
  }

  /** Every dispatch keeps the pagination invariant. */
  lemma DispatchKeepsValid(s: HomeState)
    requires Valid(s)
    ensures Valid(LoadPokemons(s).state)
    ensures Valid(LoadCombinedFilter(s).state)
    ensures Valid(FilterByName(s).state)
  {
  }

  /** A term the service would send: after `filterByName`, never blank. */
  lemma NameSearchTermNotBlank(s: HomeState)
    requires FilterByName(s).request.FetchByName?
    ensures !IsBlank(FilterByName(s).request.term, JsWhitespace)
  {
    var t := Trim(s.searchTerm, JsWhitespace);
    assert |t| > 0 ==> !IsSpace(t[0], JsWhitespace);
    BlankIffAllSpace(t, JsWhitespace);
  }

  // ---------------------------------------------------------------------
  // Pagination
  // ---------------------------------------------------------------------

  /** `next`: with a next link, advance one page and reload; otherwise nothing happens. */
  function Next(s: HomeState): (r: Step)
    ensures r.state.limit == s.limit
    ensures !Present(s.nextPage) ==> r == Step(s, None)
    ensures Present(s.nextPage) ==> r.request.Some?
    ensures Present(s.nextPage) ==> r.state.offset == s.offset + s.limit && r.state.currentPage == s.currentPage + 1
    ensures Present(s.nextPage) && BlankTerm(s) && NoSelection(s) ==>
      r == Step(s.(offset := s.offset + s.limit, currentPage := s.currentPage + 1),
                Some(FetchPage(s.offset + s.limit, s.limit)))
  {
    if Present(s.nextPage) then
      var d := LoadPokemons(s.(offset := s.offset + s.limit, currentPage := s.currentPage + 1));
      Step(d.state, Some(d.request))
    else
      Step(s, None)
  }

  /** `previous`: with a previous link and a page before this one, go back and reload. */
  function Previous(s: HomeState): (r: Step)
    ensures r.state.limit == s.limit
    ensures !(Present(s.prevPage) && s.offset >= s.limit) ==> r == Step(s, None)
    ensures Present(s.prevPage) && s.offset >= s.limit ==>
      r.request.Some? && r.state.offset == s.offset - s.limit && r.state.currentPage == s.currentPage - 1
    ensures Present(s.prevPage) && s.offset >= s.limit && BlankTerm(s) && NoSelection(s) ==>
      r == Step(s.(offset := s.offset - s.limit, currentPage := s.currentPage - 1),
                Some(FetchPage(s.offset - s.limit, s.limit)))
  {
    if Present(s.prevPage) && s.offset >= s.limit then
      var d := LoadPokemons(s.(offset := s.offset - s.limit, currentPage := s.currentPage - 1));
      Step(d.state, Some(d.request))
    else
      Step(s, None)
  }

  /** `next` keeps the pagination invariant. */
  lemma NextKeepsValid(s: HomeState)
    requires Valid(s)
    ensures Valid(Next(s).state)
  {
    if Present(s.nextPage) {
      PageArithmetic(s.offset, s.currentPage, s.limit);
      DispatchKeepsValid(s.(offset := s.offset + s.limit, currentPage := s.currentPage + 1));
    }
  }

  /** `previous` keeps the pagination invariant; in particular the offset never goes negative. */
  lemma PreviousKeepsValid(s: HomeState)
    requires Valid(s)
    ensures Valid(Previous(s).state)
  {
    if Present(s.prevPage) && s.offset >= s.limit {
      PageArithmetic(s.offset, s.currentPage, s.limit);
      DispatchKeepsValid(s.(offset := s.offset - s.limit, currentPage := s.currentPage - 1));
    }
  }

  /** Going forward and then back over a plain listing returns to the same page. */
  lemma NextThenPrevious(s: HomeState, page: Page)
    requires Valid(s) && BlankTerm(s) && NoSelection(s) && Present(s.nextPage)
    requires Present(page.previous)
    ensures var s1 := OnPage(Next(s).state, page);
      Previous(s1).request == Some(FetchPage(s.offset, s.limit))
      && Previous(s1).state.currentPage == s.currentPage
  {
  }

  // ---------------------------------------------------------------------
  // Responses
  // ---------------------------------------------------------------------

  /** A page of the plain listing arrives: it replaces the list and both links. */
  function OnPage(s: HomeState, page: Page): (s': HomeState)
    ensures s'.pokemons == page.results && s'.nextPage == page.next && s'.prevPage == page.previous
    ensures s'.offset == s.offset && s'.currentPage == s.currentPage && s'.searchTerm == s.searchTerm
    ensures s'.selectedType == s.selectedType && s'.selectedGeneration == s.selectedGeneration
    ensures s'.types == s.types && s'.generations == s.generations
  {
    s.(pokemons := page.results, nextPage := page.next, prevPage := page.previous)
  }

  /** A combined-filter result arrives: it replaces the list and disables paging. */
  function OnCombined(s: HomeState, ps: seq<Pokemon>): (s': HomeState)
    ensures s'.pokemons == ps && !Present(s'.nextPage) && !Present(s'.prevPage)
    ensures s'.offset == s.offset && s'.currentPage == s.currentPage && s'.searchTerm == s.searchTerm
    ensures s'.selectedType == s.selectedType && s'.selectedGeneration == s.selectedGeneration
    ensures s'.types == s.types && s'.generations == s.generations
  {
    s.(pokemons := ps, nextPage := None, prevPage := None)
  }

  /** A name-search result arrives: at most one pokemon, no paging, both selectors on "all". */
  function OnName(s: HomeState, p: Option<Pokemon>): (s': HomeState)
    ensures |s'.pokemons| <= 1 && (|s'.pokemons| == 1 <==> p.Some?)
    ensures p.Some? ==> s'.pokemons[0] == p.value
    ensures !Present(s'.nextPage) && !Present(s'.prevPage) && NoSelection(s')
    ensures s'.offset == s.offset && s'.currentPage == s.currentPage && s'.searchTerm == s.searchTerm
    ensures s'.types == s.types && s'.generations == s.generations
  {
    s.(pokemons := if p.Some? then [p.value] else [],
       nextPage := None, prevPage := None, selectedType := 0, selectedGeneration := 0)
  }

  /** After a filter or search result neither `next` nor `previous` does anything. */
  lemma NoPagingAfterFilterResult(s: HomeState, ps: seq<Pokemon>, p: Option<Pokemon>)
    ensures Next(OnCombined(s, ps)) == Step(OnCombined(s, ps), None)
    ensures Previous(OnCombined(s, ps)) == Step(OnCombined(s, ps), None)
    ensures Next(OnName(s, p)) == Step(OnName(s, p), None)
    ensures Previous(OnName(s, p)) == Step(OnName(s, p), None)
  {
  }

  /** The type list arrives: the "Todos" entry (id 0) goes first, then the fetched types in order. */
  function OnTypes(s: HomeState, ts: seq<Named>): (s': HomeState)
    ensures |s'.types| == |ts| + 1 && s'.types[0] == Named(0, "Todos") && s'.types[1..] == ts
    ensures s'.generations == s.generations && s'.pokemons == s.pokemons
    ensures s'.nextPage == s.nextPage && s'.prevPage == s.prevPage
    ensures s'.offset == s.offset && s'.currentPage == s.currentPage && s'.searchTerm == s.searchTerm
    ensures s'.selectedType == s.selectedType && s'.selectedGeneration == s.selectedGeneration
  {
    s.(types := [Named(0, "Todos")] + ts)
  }

  /** The generation list arrives as the service built it, "Todas" entry included. */
  function OnGenerations(s: HomeState, gs: seq<Named>): (s': HomeState)
    ensures s'.generations == gs && s'.types == s.types && s'.pokemons == s.pokemons
    ensures s'.nextPage == s.nextPage && s'.prevPage == s.prevPage
    ensures s'.offset == s.offset && s'.currentPage == s.currentPage && s'.searchTerm == s.searchTerm
    ensures s'.selectedType == s.selectedType && s'.selectedGeneration == s.selectedGeneration
  {
    s.(generations := gs)
  }

  /**
   * The drop-downs after both loads: the type list always has its "Todos"
   * entry, while a failed generations request leaves no "Todas" entry.
   */
  lemma FiltersAfterLoad(s: HomeState, tr: Http<Option<seq<Named>>>, gr: Http<Option<seq<Named>>>)
    ensures var s' := OnGenerations(OnTypes(s, TiposResponse(tr)), GenerationsResponse(gr));
      && s'.types[0] == Named(0, "Todos")
      && (gr.Delivered? ==> s'.generations[0] == Named(0, "Todas"))
      && (gr.Failed? ==> s'.generations == [])
  {
  }

  // ---------------------------------------------------------------------
  // The page as a whole
  // ---------------------------------------------------------------------

  /** `ngOnInit`: request both drop-down lists, then the first page. */
  function Start(): (r: (HomeState, seq<Request>))
    ensures r.0 == Initial()
    ensures r.0.limit == PageSize && r.0.currentPage == 1 && r.0.offset == 0
    ensures r.0.selectedType == 0 && r.0.selectedGeneration == 0 && r.0.searchTerm == ""
    ensures Valid(r.0)
    ensures r.1 == [FetchTypes, FetchGenerations, FetchPage(0, PageSize)]
  {
    assert BlankTerm(Initial()) by {
      assert Trim("", JsWhitespace) == "";
    }
    var d := LoadPokemons(Initial());
    (d.state, [FetchTypes, FetchGenerations, d.request])
  }

  /** What can happen to the page: a bound field edited, a method called, a response arriving. */
  datatype Event =
    | EditSearchTerm(term: string)
    | EditType(typeId: int)
    | EditGeneration(genId: int)
    | CallLoadPokemons
    | CallNext
    | CallPrevious
    | CallFilterByType(typeId: int)
    | CallFilterByGeneration
    | CallFilterByName
    | PageArrived(page: Page)
    | CombinedArrived(ps: seq<Pokemon>)
    | NameArrived(p: Option<Pokemon>)
    | TypesArrived(ts: seq<Named>)
    | GenerationsArrived(gs: seq<Named>)

  function AsStep(d: Dispatch): Step {
    Step(d.state, Some(d.request))
  }

  /** An edit of a bound field: it changes that field and requests nothing. */
  predicate IsEdit(e: Event) {
    e.EditSearchTerm? || e.EditType? || e.EditGeneration?
  }

  /** A response arriving: it requests nothing further. */
  predicate IsResponse(e: Event) {
    e.PageArrived? || e.CombinedArrived? || e.NameArrived? || e.TypesArrived? || e.GenerationsArrived?
  }

  /** A method call and the request it issues, if any. */
  function CallStep(s: HomeState, e: Event): (r: Step)
    requires !IsEdit(e) && !IsResponse(e)
    ensures !e.CallNext? && !e.CallPrevious? ==> r.request.Some?
    ensures r.state.limit == s.limit
  {
    match e
    case CallLoadPokemons => AsStep(LoadPokemons(s))
    case CallNext => Next(s)
    case CallPrevious => Previous(s)
    case CallFilterByType(id) => AsStep(FilterByType(s, id))
    case CallFilterByGeneration => AsStep(FilterByGeneration(s))
    case CallFilterByName => AsStep(FilterByName(s))
  }

  /** A response arriving: the state it leaves, with no further request. */
  function ResponseStep(s: HomeState, e: Event): (r: Step)
    requires IsResponse(e)
    ensures r.request.None?
    ensures r.state.limit == s.limit && r.state.offset == s.offset && r.state.currentPage == s.currentPage
    ensures r.state.searchTerm == s.searchTerm
    ensures !e.NameArrived? ==>
      r.state.selectedType == s.selectedType && r.state.selectedGeneration == s.selectedGeneration
  {
    match e
    case PageArrived(p) => Step(OnPage(s, p), None)
    case CombinedArrived(ps) => Step(OnCombined(s, ps), None)
    case NameArrived(p) => Step(OnName(s, p), None)
    case TypesArrived(ts) => Step(OnTypes(s, ts), None)
    case GenerationsArrived(gs) => Step(OnGenerations(s, gs), None)
  }

  /**
   * A response other than a name-search result never changes what the next
   * reload asks for: it keeps the term, the selectors and the pagination.
   */
  lemma ResponseKeepsNextLoad(s: HomeState, e: Event)
    requires IsResponse(e) && !e.NameArrived?
    ensures LoadPokemons(ResponseStep(s, e).state).request == LoadPokemons(s).request
  {
  }

  /**
   * One event and the request it issues, if any: edits and responses
   * issue none, the loading and filter methods always issue one, and the
   * page size never changes.
   */
  function Handle(s: HomeState, e: Event): (r: Step)
    ensures IsEdit(e) || IsResponse(e) ==> r.request.None?
    ensures e.CallLoadPokemons? || e.CallFilterByType? || e.CallFilterByGeneration? || e.CallFilterByName? ==>
      r.request.Some?
    ensures r.state.limit == s.limit
  {
    if e.EditSearchTerm? then Step(s.(searchTerm := e.term), None)
    else if e.EditType? then Step(s.(selectedType := e.typeId), None)
    else if e.EditGeneration? then Step(s.(selectedGeneration := e.genId), None)
    else if IsResponse(e) then ResponseStep(s, e)
    else CallStep(s, e)
  }

  /** An edit changes only its bound field: nothing is loaded until a method is called. */
  lemma EditsChangeOnlyTheirField(s: HomeState, e: Event)
    requires IsEdit(e)
    ensures e.EditSearchTerm? ==> Handle(s, e).state == s.(searchTerm := e.term)
    ensures e.EditType? ==> Handle(s, e).state == s.(selectedType := e.typeId)
    ensures e.EditGeneration? ==> Handle(s, e).state == s.(selectedGeneration := e.genId)
  {
  }

  /** Every event keeps the pagination invariant. */
  lemma HandleKeepsValid(s: HomeState, e: Event)
    requires Valid(s)
    ensures Valid(Handle(s, e).state)
  {
    match e
    case CallNext => NextKeepsValid(s);
    case CallPrevious => PreviousKeepsValid(s);
    case _ => DispatchKeepsValid(s);
  }

  /** The state after a sequence of events. */
  function Run(s: HomeState, es: seq<Event>): (s': HomeState)
    ensures s'.limit == s.limit
    ensures (forall i :: 0 <= i < |es| ==> IsResponse(es[i])) ==>
      s'.offset == s.offset && s'.currentPage == s.currentPage && s'.searchTerm == s.searchTerm
    decreases |es|
  {
    if |es| == 0 then s else Run(Handle(s, es[0]).state, es[1..])
  }

  /** From the start, every sequence of events keeps the pagination invariant. */
  lemma {:induction false} RunKeepsValid(s: HomeState, es: seq<Event>)
    requires Valid(s)
    ensures Valid(Run(s, es))
    decreases |es|
  {
    if |es| > 0 {
      HandleKeepsValid(s, es[0]);
      RunKeepsValid(Handle(s, es[0]).state, es[1..]);
    }
  }

  /** The page number never drops below 1 and the offset never below 0, whatever happens. */
  lemma PagesStayPositive(es: seq<Event>)
    ensures var s := Run(Start().0, es); s.currentPage >= 1 && s.offset >= 0
  {
    var s0 := Start().0;
    assert Valid(s0);
    RunKeepsValid(s0, es);
    var s := Run(s0, es);
    assert Valid(s);
    PageArithmetic(s.offset, s.currentPage, s.limit);
  }
}

=== FILE: service.dfy ===
/**
 * The browser's `PokemonService`: which request each call issues (or the
 * value it returns without one), how a response body becomes the value the
 * components see, and which create/update/delete a favourite or team toggle
 * sends. HTTP itself is left out: a request is described by its URL or by
 * an `Action`, and a response is an input.
 */
module PokemonService {
  import opened Wrappers
  import opened Text

  const ApiUrl: string := "http://127.0.0.1:8000/api/pokemon/"
  const ArtworkUrl: string := "https://raw.githubusercontent.com/PokeAPI/sprites/master/sprites/pokemon/other/official-artwork/"

  /** An entry of the type or generation drop-down. */
  datatype Named = Named(id: int, name: string)

  /** A pokemon card as the components display it. */
  datatype Pokemon = Pokemon(id: JsNumber, nome: string, imagem: string, tipos: seq<string>)

  /** A user's stored mark on one pokemon, as the server returns it. */
  datatype UserPokemonRecord = UserPokemonRecord(
    idPokemonUsuario: int,
    codigo: string,
    grupoBatalha: bool,
    favorito: bool,
    nome: string,
    imagemUrl: string)

  /** What a card knows about the pokemon it toggles; the optional flags are never read. */
  datatype UserPokemonData = UserPokemonData(
    codigo: string,
    nome: string,
    imagemUrl: string,
    grupoBatalha: Option<bool>,
    favorito: Option<bool>)

  /** A response: the decoded body, or any transport or HTTP error. */
  datatype Http<T> = Delivered(body: T) | Failed

  /** A service call either answers at once, without a request, or issues a GET of `url`. */
  datatype Call<T> = Immediate(value: T) | Get(url: string)

  // ---------------------------------------------------------------------
  // mapToPokemon
  // ---------------------------------------------------------------------

  /** A JSON field that should hold a list of type names. */
  datatype ListField = Missing | NotArray | Array(items: seq<string>)

  /** The fields of a server pokemon object that `mapToPokemon` reads. */
  datatype RawPokemon = RawPokemon(
    id: Option<int>,
    codigo: Option<string>,
    url: Option<string>,
    tipos: ListField,
    tiposNomes: ListField,
    nome: Option<string>,
    name: Option<string>,
    imagemUrl: Option<string>)

  /** JavaScript truthiness of an optional string field: present and non-empty. */
  predicate Present(s: Option<string>) {
    s.Some? && |s.value| > 0
  }

  /** `url.split('/').filter(Boolean).pop()`: the last non-empty segment, if any. */
  function LastUrlSegment(url: string): (seg: Option<string>)
    ensures seg.None? <==> forall i :: 0 <= i < |url| ==> url[i] == '/'
    ensures seg.Some? ==> |seg.value| > 0 && forall i :: 0 <= i < |seg.value| ==> seg.value[i] != '/'
    ensures seg.Some? ==> exists p, k: nat ::
      && url == p + seg.value + Repeat('/', k)
      && (|p| == 0 || p[|p| - 1] == '/')
  {
    var body := RStrip(url, '/');
    var t := LastSegment(body, '/');
    var k: nat := |url| - |body|;
    var p := body[..|body| - |t|];
    assert url == body + url[|body|..];
    assert url[|body|..] == Repeat('/', k);
    assert body == p + t;
    assert |body| > 0 ==> |t| > 0;
    if |t| == 0 then None else Some(t)
  }

  /** `Number(data.id || data.codigo || <last url segment>)`. */
  function RawId(d: RawPokemon): (id: JsNumber)
    ensures d.id.Some? && d.id.value != 0 ==> id == Finite(d.id.value)
    ensures (d.id.None? || d.id == Some(0)) && Present(d.codigo) ==> id == StringToNumber(d.codigo.value)
    ensures (d.id.None? || d.id == Some(0)) && !Present(d.codigo) ==>
      (id.NaN? <==> d.url.None? || LastUrlSegment(d.url.value).None? || StringToNumber(LastUrlSegment(d.url.value).value).NaN?)
    ensures (d.id.None? || d.id == Some(0)) && !Present(d.codigo) && d.url.Some? && LastUrlSegment(d.url.value).Some? ==>
      id == StringToNumber(LastUrlSegment(d.url.value).value)
  {
    if d.id.Some? && d.id.value != 0 then Finite(d.id.value)
    else if Present(d.codigo) then StringToNumber(d.codigo.value)
    else if d.url.Some? && LastUrlSegment(d.url.value).Some? then StringToNumber(LastUrlSegment(d.url.value).value)
    else NaN
  }

  /** The first list-valued field among `tipos` and `tipos_nomes`, else none. */
  function RawTipos(d: RawPokemon): seq<string> {
    if d.tipos.Array? then d.tipos.items
    else if d.tiposNomes.Array? then d.tiposNomes.items
    else []
  }

  /**
   * A server object as a card. The name is the first non-empty of `nome`
   * and `name`, else "Pokemon <id>", so it is never empty; the image is
   * `imagemUrl` when non-empty, else the official artwork for the id.
   */
  function MapToPokemon(d: RawPokemon): (p: Pokemon)
    ensures p.id == RawId(d) && p.tipos == RawTipos(d)
    ensures |p.nome| > 0 && |p.imagem| > 0
    ensures Present(d.nome) ==> p.nome == d.nome.value
    ensures Present(d.name) && !Present(d.nome) ==> p.nome == d.name.value
    ensures !Present(d.nome) && !Present(d.name) ==> p.nome == "Pokemon " + NumberToString(p.id)
    ensures Present(d.imagemUrl) ==> p.imagem == d.imagemUrl.value
    ensures !Present(d.imagemUrl) ==> p.imagem == ArtworkUrl + NumberToString(p.id) + ".png"
  {
    var id := RawId(d);
    var nome :=
      if Present(d.nome) then d.nome.value
      else if Present(d.name) then d.name.value
      else "Pokemon " + NumberToString(id);
    var imagem :=
      if Present(d.imagemUrl) then d.imagemUrl.value
      else ArtworkUrl + NumberToString(id) + ".png";
    Pokemon(id, nome, imagem, RawTipos(d))
  }

  /** With no id field, a record's `codigo` that spells an integer gives that id. */
  lemma IdFromCodigo(d: RawPokemon, n: int)
    requires d.id.None? || d.id == Some(0)
    requires d.codigo == Some(IntToString(n))
    ensures MapToPokemon(d).id == Finite(n)
  {
    StringToNumberOfIntToString(n);
  }

  /** With neither id nor codigo, a PokeAPI resource URL `.../<n>/` gives the id `n`. */
  lemma IdFromResourceUrl(d: RawPokemon, prefix: string, n: nat, slashes: nat)
    requires d.id.None? && d.codigo.None?
    requires d.url == Some(prefix + "/" + NatToDigits(n) + Repeat('/', slashes))
    ensures MapToPokemon(d).id == Finite(n)
  {
    var digits := NatToDigits(n);
    var body := prefix + "/" + digits;
    RStripSlashes(body, slashes);
    LastSegmentAfterSlash(prefix, digits);
    assert LastUrlSegment(d.url.value) == Some(digits);
    assert digits == IntToString(n);
    StringToNumberOfIntToString(n);
  }

  // ---------------------------------------------------------------------
  // Listing calls and their responses
  // ---------------------------------------------------------------------

  /** One page of the listing; `next`/`previous` are absent for JSON null or a missing key. */
  datatype Page = Page(results: seq<Pokemon>, next: Option<string>, previous: Option<string>)

  /** The page body as the server sends it; `results` may be missing. */
  datatype RawPage = RawPage(results: Option<seq<RawPokemon>>, next: Option<string>, previous: Option<string>)

  /** `getPokemons(offset, limit)` always issues its request. */
  function PageCall(offset: int, limit: int): (c: Call<Page>)
    ensures c.Get?
  {
    Get(ApiUrl + "?offset=" + IntToString(offset) + "&limit=" + IntToString(limit))
  }

  /** Maps each result and drops its types; the page links are kept. */
  function MapPageResults(rs: seq<RawPokemon>): (ps: seq<Pokemon>)
    ensures |ps| == |rs|
    ensures forall i :: 0 <= i < |rs| ==> ps[i] == MapToPokemon(rs[i]).(tipos := [])
  {
    if |rs| == 0 then [] else [MapToPokemon(rs[0]).(tipos := [])] + MapPageResults(rs[1..])
  }

  /** A page response; a failure reads as an empty page with no links. */
  function PageResponse(resp: Http<RawPage>): (p: Page)
    ensures resp.Failed? ==> p == Page([], None, None)
    ensures resp.Delivered? ==>
      && p.next == resp.body.next && p.previous == resp.body.previous
      && |p.results| == |resp.body.results.GetOr([])|
      && forall i :: 0 <= i < |p.results| ==>
           p.results[i] == MapToPokemon(resp.body.results.GetOr([])[i]).(tipos := [])
  {
    match resp
    case Failed => Page([], None, None)
    case Delivered(body) => Page(MapPageResults(body.results.GetOr([])), body.next, body.previous)
  }

  /** Maps every result, keeping order and types. */
  function MapResults(rs: seq<RawPokemon>): (ps: seq<Pokemon>)
    ensures |ps| == |rs|
    ensures forall i :: 0 <= i < |rs| ==> ps[i] == MapToPokemon(rs[i])
  {
    if |rs| == 0 then [] else [MapToPokemon(rs[0])] + MapResults(rs[1..])
  }

  /** A filtered-list response (`results` may be missing); a failure reads as no pokemon. */
  function ListResponse(resp: Http<Option<seq<RawPokemon>>>): (ps: seq<Pokemon>)
    ensures resp.Failed? ==> ps == []
    ensures resp.Delivered? ==>
      && |ps| == |resp.body.GetOr([])|
      && forall i :: 0 <= i < |ps| ==> ps[i] == MapToPokemon(resp.body.GetOr([])[i])
  {
    match resp
    case Failed => []
    case Delivered(results) => MapResults(results.GetOr([]))
  }

  /** A single-pokemon response (search or details); a failure reads as null. */
  function SingleResponse(resp: Http<RawPokemon>): (p: Option<Pokemon>)
    ensures p.None? <==> resp.Failed?
    ensures resp.Delivered? ==> p.value == MapToPokemon(resp.body)
  {
    match resp
    case Failed => None
    case Delivered(body) => Some(MapToPokemon(body))
  }

  /** `getPokemonsByGenerationId(id)`: generation 0 ("all") answers `[]` without a request. */
  function GenerationCall(id: int): (c: Call<seq<Pokemon>>)
    ensures c.Immediate? <==> id == 0
    ensures c.Immediate? ==> c.value == []
    ensures c.Get? ==> c.url == ApiUrl + "filter-generation?id=" + IntToString(id)
  {
    if id == 0 then Immediate([]) else Get(ApiUrl + "filter-generation?id=" + IntToString(id))
  }

  /** `getPokemonsByTipoId(id)`: type 0 ("all") answers `[]` without a request. */
  function TypeCall(id: int): (c: Call<seq<Pokemon>>)
    ensures c.Immediate? <==> id == 0
    ensures c.Immediate? ==> c.value == []
    ensures c.Get? ==> c.url == ApiUrl + "filter-type?id=" + IntToString(id)
  {
    if id == 0 then Immediate([]) else Get(ApiUrl + "filter-type?id=" + IntToString(id))
  }

  /** `getPokemonsByCombinedFilter(genId, typeId)` has no sentinel: it always issues its request. */
  function CombinedCall(genId: int, typeId: int): (c: Call<seq<Pokemon>>)
    ensures c.Get?
  {
    Get(ApiUrl + "filter-combined?gen_id=" + IntToString(genId) + "&type_id=" + IntToString(typeId))
  }

  /**
   * `searchPokemonByName(name)`: the name is lower-cased and trimmed; a
   * name left empty answers null without a request.
   */
  function SearchCall(name: string): (c: Call<Option<Pokemon>>)
    ensures c.Immediate? <==> IsBlank(name, JsWhitespace)
    ensures c.Immediate? ==> c.value.None?
    ensures c.Get? ==> c.url == ApiUrl + "search-name?name=" + Trim(Lower(name), JsWhitespace)
  {
    LowerKeepsBlank(name, JsWhitespace);
    var safeName := Trim(Lower(name), JsWhitespace);
    if |safeName| == 0 then Immediate(None) else Get(ApiUrl + "search-name?name=" + safeName)
  }

  // ---------------------------------------------------------------------
  // Drop-down lists
  // ---------------------------------------------------------------------

  /** `getTipos()`: the body's `tipos` (missing reads as none); a failure reads as none. */
  function TiposResponse(resp: Http<Option<seq<Named>>>): (ts: seq<Named>)
    ensures resp.Failed? ==> ts == []
    ensures resp.Delivered? ==> ts == resp.body.GetOr([])
  {
    match resp
    case Failed => []
    case Delivered(tipos) => tipos.GetOr([])
  }

  /** The label of a server generation; the server's own name is ignored. */
  function GenerationEntry(g: Named): Named {
    Named(g.id, "Geração " + IntToString(g.id))
  }

  function GenerationEntries(gs: seq<Named>): (es: seq<Named>)
    ensures |es| == |gs|
    ensures forall i :: 0 <= i < |gs| ==> es[i] == GenerationEntry(gs[i])
  {
    if |gs| == 0 then [] else [GenerationEntry(gs[0])] + GenerationEntries(gs[1..])
  }

  /**
   * `getGenerations()`: the "Todas" entry with id 0, then one labelled
   * entry per server generation in order. A failure yields an empty list,
   * without the "Todas" entry.
   */
  function GenerationsResponse(resp: Http<Option<seq<Named>>>): (es: seq<Named>)
    ensures resp.Failed? ==> es == []
    ensures resp.Delivered? ==>
      var gs := resp.body.GetOr([]);
      && |es| == |gs| + 1
      && es[0] == Named(0, "Todas")
      && forall i :: 0 <= i < |gs| ==> es[i + 1].id == gs[i].id && es[i + 1].name == "Geração " + IntToString(gs[i].id)
  {
    match resp
    case Failed => []
    case Delivered(gs) => [Named(0, "Todas")] + GenerationEntries(gs.GetOr([]))
  }

  // ---------------------------------------------------------------------
  // Per-user records
  // ---------------------------------------------------------------------

  /** `records.find(r => r.codigo === codigo) || null`: the first record with that codigo. */
  function FindRecord(records: seq<UserPokemonRecord>, codigo: string): (r: Option<UserPokemonRecord>)
    ensures r.None? <==> forall i :: 0 <= i < |records| ==> records[i].codigo != codigo
    ensures r.Some? ==>
      exists i :: 0 <= i < |records| && records[i] == r.value && r.value.codigo == codigo
        && forall j :: 0 <= j < i ==> records[j].codigo != codigo
  {
    if |records| == 0 then None
    else if records[0].codigo == codigo then Some(records[0])
    else
      var r := FindRecord(records[1..], codigo);
      assert forall j :: 1 <= j < |records| ==> records[j] == records[1..][j - 1];
      r
  }

  /** `getUserPokemonRecord(codigo)`: the lookup, or null when the request fails. */
  function UserRecordResponse(resp: Http<seq<UserPokemonRecord>>, codigo: string): (r: Option<UserPokemonRecord>)
    ensures resp.Failed? ==> r.None?
    ensures resp.Delivered? ==> r == FindRecord(resp.body, codigo)
    ensures r.Some? ==> r.value.codigo == codigo
  {
    match resp
    case Failed => None
    case Delivered(records) => FindRecord(records, codigo)
  }

  // ---------------------------------------------------------------------
  // toggleUserPokemonStatus
  // ---------------------------------------------------------------------

  /** A partial record body: the flags not set are left out of the JSON. */
  datatype Payload = Payload(
    codigo: string,
    nome: string,
    imagemUrl: string,
    favorito: Option<bool>,
    grupoBatalha: Option<bool>)

  /** The request a toggle sends to the per-user records endpoint. */
  datatype Action = Post(body: Payload) | Patch(id: int, body: Payload) | Delete(id: int)

  /** The targeted flag of a record: `grupoBatalha` for the team, else `favorito`. */
  function FlagOf(r: UserPokemonRecord, isEquipe: bool): bool {
    if isEquipe then r.grupoBatalha else r.favorito
  }

  /** The flag a payload sets for the team (`isEquipe`) or for the favourites. */
  function PayloadFlag(p: Payload, isEquipe: bool): Option<bool> {
    if isEquipe then p.grupoBatalha else p.favorito
  }

  /** A payload with the display fields of `data` and only the targeted flag set. */
  function TargetPayload(data: UserPokemonData, isEquipe: bool, status: bool): Payload {
    var base := Payload(data.codigo, data.nome, data.imagemUrl, None, None);
    if isEquipe then base.(grupoBatalha := Some(status)) else base.(favorito := Some(status))
  }

  /**
   * Flip the targeted flag of the pokemon described by `data`, given the
   * user's existing record for it (or none). Without a record it creates
   * one with the targeted flag set and the other clear; with a record it
   * deletes it when both flags would end up clear, and otherwise patches
   * the targeted flag alone. Display fields always come from `data`.
   */
  function ToggleAction(record: Option<UserPokemonRecord>, data: UserPokemonData, isEquipe: bool): (a: Action)
    ensures record.None? ==>
      a.Post? && PayloadFlag(a.body, isEquipe) == Some(true) && PayloadFlag(a.body, !isEquipe) == Some(false)
    ensures record.Some? && FlagOf(record.value, isEquipe) && !FlagOf(record.value, !isEquipe) ==>
      a == Delete(record.value.idPokemonUsuario)
    ensures record.Some? && !(FlagOf(record.value, isEquipe) && !FlagOf(record.value, !isEquipe)) ==>
      && a.Patch? && a.id == record.value.idPokemonUsuario
      && PayloadFlag(a.body, isEquipe) == Some(!FlagOf(record.value, isEquipe))
      && PayloadFlag(a.body, !isEquipe).None?
    ensures !a.Delete? ==>
      a.body.codigo == data.codigo && a.body.nome == data.nome && a.body.imagemUrl == data.imagemUrl
  {
    var currentStatus := record.Some? && FlagOf(record.value, isEquipe);
    var newStatus := !currentStatus;
    var payload := TargetPayload(data, isEquipe, newStatus);
    match record
    case Some(r) =>
      var otherStatus := FlagOf(r, !isEquipe);
      if newStatus == false && otherStatus == false then Delete(r.idPokemonUsuario)
      else Patch(r.idPokemonUsuario, payload)
    case None =>
      Post(if isEquipe then payload.(favorito := Some(false)) else payload.(grupoBatalha := Some(false)))
  }

  /** The optional flags a card passes in `data` never change the action. */
  lemma ToggleIgnoresDataFlags(record: Option<UserPokemonRecord>, data: UserPokemonData, isEquipe: bool,
                               team: Option<bool>, fav: Option<bool>)
    ensures ToggleAction(record, data.(grupoBatalha := team, favorito := fav), isEquipe)
         == ToggleAction(record, data, isEquipe)
  {
  }
}

=== FILE: text.dfy ===
/**
 * String helpers shared by the browser client and the Django server:
 * decimal digits, whitespace trimming (JavaScript's `trim` and Python's
 * `strip` use slightly different whitespace sets), ASCII lower-casing,
 * JavaScript's `Number(string)`, Python's `int(str)`, `rstrip` of one
 * character and the last `/`-separated segment of a path.
 */
module Text {
  import opened Wrappers

  // ---------------------------------------------------------------------
  // Decimal digits
  // ---------------------------------------------------------------------

  predicate IsDigit(c: char) {
    '0' <= c <= '9'
  }

  predicate AllDigits(s: string) {
    forall i :: 0 <= i < |s| ==> IsDigit(s[i])
  }

  function DigitValue(c: char): nat
    requires IsDigit(c)
  {
    c as int - '0' as int
  }

  function DigitChar(d: nat): (c: char)
    requires d < 10
    ensures IsDigit(c) && DigitValue(c) == d
  {
    ('0' as int + d) as char
  }

  /** The value of a string of decimal digits, most significant digit first. */
  function DigitsValue(s: string): nat
    requires AllDigits(s)
  {
    if |s| == 0 then 0 else 10 * DigitsValue(s[..|s| - 1]) + DigitValue(s[|s| - 1])
  }

  /** The shortest decimal spelling of `n`: non-empty, no leading zero, reads back as `n`. */
  function NatToDigits(n: nat): (s: string)
    ensures |s| > 0 && AllDigits(s)
    ensures DigitsValue(s) == n
    ensures s[0] == '0' <==> n == 0
  {
    if n < 10 then [DigitChar(n)]
    else
      var init := NatToDigits(n / 10);
      var s := init + [DigitChar(n % 10)];
      assert s[..|s| - 1] == init;
      s
  }

  /** How JavaScript's template literals and string concatenation print an integer. */
  function IntToString(n: int): (s: string)
    ensures |s| > 0
  {
    if n < 0 then "-" + NatToDigits(-n) else NatToDigits(n)
  }

  // ---------------------------------------------------------------------
  // Whitespace and trimming
  // ---------------------------------------------------------------------

  /** Which language's notion of whitespace a trim uses. */
  datatype Whitespace = JsWhitespace | PyIntWhitespace

  /**
   * JavaScript's `String.prototype.trim` strips the ASCII blanks, the Unicode
   * space separators, the line/paragraph separators and U+FEFF. Python's
   * `int()` skips the same set without U+FEFF but with U+0085: a non-ASCII
   * character counts when Unicode calls it whitespace, an ASCII one only
   * when it is one of the six C blanks, so the information separators
   * U+001C..U+001F (which `str.strip()` would remove) make `int()` fail.
   */
  predicate IsSpace(c: char, ws: Whitespace) {
    || c == ' ' || c == '\t' || c == '\n' || c == '\r' || c == '\U{000B}' || c == '\U{000C}'
    || c == '\U{00A0}' || c == '\U{1680}' || ('\U{2000}' <= c <= '\U{200A}')
    || c == '\U{2028}' || c == '\U{2029}' || c == '\U{202F}' || c == '\U{205F}' || c == '\U{3000}'
    || (ws == JsWhitespace && c == '\U{FEFF}')
    || (ws == PyIntWhitespace && c == '\U{0085}')
  }

  predicate AllSpace(s: string, ws: Whitespace) {
    forall i :: 0 <= i < |s| ==> IsSpace(s[i], ws)
  }

  /** `s` without its leading whitespace: a suffix of `s` that does not start with whitespace. */
  function TrimStart(s: string, ws: Whitespace): (t: string)
    ensures |t| <= |s| && t == s[|s| - |t|..]
    ensures AllSpace(s[..|s| - |t|], ws)
    ensures |t| > 0 ==> !IsSpace(t[0], ws)
  {
    if |s| > 0 && IsSpace(s[0], ws) then TrimStart(s[1..], ws) else s
  }

  /** `s` without its trailing whitespace: a prefix of `s` that does not end with whitespace. */
  function TrimEnd(s: string, ws: Whitespace): (t: string)
    ensures |t| <= |s| && t == s[..|t|]
    ensures AllSpace(s[|t|..], ws)
    ensures |t| > 0 ==> !IsSpace(t[|t| - 1], ws)
  {
    if |s| > 0 && IsSpace(s[|s| - 1], ws) then TrimEnd(s[..|s| - 1], ws) else s
  }

  /** JavaScript's `s.trim()` (with `JsWhitespace`) or the whitespace Python's `int()` ignores around its digits (with `PyIntWhitespace`). */
  function Trim(s: string, ws: Whitespace): string {
    TrimEnd(TrimStart(s, ws), ws)
  }

  /** A string that trims to the empty string, i.e. a falsy `s.trim()` in JavaScript. */
  predicate IsBlank(s: string, ws: Whitespace) {
    |Trim(s, ws)| == 0
  }

  /** A string is blank exactly when every one of its characters is whitespace. */
  lemma BlankIffAllSpace(s: string, ws: Whitespace)
    ensures IsBlank(s, ws) <==> AllSpace(s, ws)
  {
    var u := TrimStart(s, ws);
    if IsBlank(s, ws) {
      assert AllSpace(u, ws) by {
        assert u[0..] == u;
      }
      assert |u| == 0;
      assert s[..|s| - |u|] == s;
    } else {
      assert |u| > 0 && u[0] == s[|s| - |u|];
      assert !IsSpace(s[|s| - |u|], ws);
    }
  }

  /** A string with no whitespace at either end is its own trim. */
  lemma TrimOfTrimmed(s: string, ws: Whitespace)
    requires |s| > 0 ==> !IsSpace(s[0], ws) && !IsSpace(s[|s| - 1], ws)
    ensures Trim(s, ws) == s
  {
  }

  // ---------------------------------------------------------------------
  // Case
  // ---------------------------------------------------------------------

  function LowerChar(c: char): char {
    if 'A' <= c <= 'Z' then (c as int + 32) as char else c
  }

  /** `s.toLowerCase()`, restricted to the ASCII letters. */
  function Lower(s: string): (t: string)
    ensures |t| == |s|
    ensures forall i :: 0 <= i < |s| ==> t[i] == LowerChar(s[i])
  {
    if |s| == 0 then [] else [LowerChar(s[0])] + Lower(s[1..])
  }

  lemma LowerCharKeepsSpace(c: char, ws: Whitespace)
    ensures IsSpace(LowerChar(c), ws) <==> IsSpace(c, ws)
  {
  }

  /** Lower-casing never turns whitespace into text or text into whitespace. */
  lemma LowerKeepsBlank(s: string, ws: Whitespace)
    ensures IsBlank(Lower(s), ws) <==> IsBlank(s, ws)
  {
    BlankIffAllSpace(s, ws);
    BlankIffAllSpace(Lower(s), ws);
    var t := Lower(s);
    forall i | 0 <= i < |s|
      ensures IsSpace(t[i], ws) <==> IsSpace(s[i], ws)
    {
      LowerCharKeepsSpace(s[i], ws);
    }
  }

  // ---------------------------------------------------------------------
  // Numbers
  // ---------------------------------------------------------------------

  /** A JavaScript number, restricted to the integers and NaN. */
  datatype JsNumber = Finite(value: int) | NaN

  /** `String(x)` for a number. */
  function NumberToString(x: JsNumber): string {
    match x
    case NaN => "NaN"
    case Finite(n) => IntToString(n)
  }

  /** An optional `+` or `-` followed by one or more decimal digits. */
  function SignedDigits(t: string): (r: Option<int>)
    ensures r.Some? ==> |t| > 0
  {
    if |t| > 1 && (t[0] == '+' || t[0] == '-') && AllDigits(t[1..]) then
      var v: int := DigitsValue(t[1..]);
      Some(if t[0] == '-' then -v else v)
    else if |t| > 0 && AllDigits(t) then
      Some(DigitsValue(t))
    else
      None
  }

  /** Every printed integer reads back as itself. */
  lemma SignedDigitsOfIntToString(n: int)
    ensures SignedDigits(IntToString(n)) == Some(n)
  {
    var s := IntToString(n);
    if n < 0 {
      assert s[1..] == NatToDigits(-n);
      assert !IsDigit(s[0]);
    }
  }

  /**
   * `Number(s)` for a string: surrounding whitespace is ignored, an empty
   * or all-blank string is 0, an optionally signed decimal integer is its
   * value, and anything else is NaN.
   */
  function StringToNumber(s: string): (x: JsNumber)
    ensures IsBlank(s, JsWhitespace) ==> x == Finite(0)
  {
    var t := Trim(s, JsWhitespace);
    if |t| == 0 then Finite(0)
    else
      match SignedDigits(t)
      case Some(n) => Finite(n)
      case None => NaN
  }

  /** Printing an integer and reading it back with `Number` gives the integer. */
  lemma {:induction false} StringToNumberOfIntToString(n: int)
    ensures StringToNumber(IntToString(n)) == Finite(n)
  {
    var s := IntToString(n);
    assert !IsSpace(s[0], JsWhitespace) && !IsSpace(s[|s| - 1], JsWhitespace) by {
      if n < 0 {
        assert s[|s| - 1] == NatToDigits(-n)[|NatToDigits(-n)| - 1];
      }
    }
    TrimOfTrimmed(s, JsWhitespace);
    SignedDigitsOfIntToString(n);
  }

  /** CPython's default cap on the digits `int()` converts from a string. */
  const IntMaxStrDigits: nat := 4300

  /** The number of digits of an optionally signed digit string: the sign is not counted. */
  function DigitCount(t: string): nat {
    if |t| > 0 && (t[0] == '+' || t[0] == '-') then |t| - 1 else |t|
  }

  /** `|n|`. */
  function Abs(n: int): nat {
    if n < 0 then -n else n
  }

  /**
   * Python's `int(s)` in base 10: surrounding whitespace is ignored and
   * what remains must be an optionally signed decimal integer of at most
   * `IntMaxStrDigits` digits; otherwise it raises `ValueError`.
   */
  function PyInt(s: string): (r: Result<int>)
    ensures r.Ok? ==> !IsBlank(s, PyIntWhitespace)
    ensures r.Ok? <==>
      SignedDigits(Trim(s, PyIntWhitespace)).Some? && DigitCount(Trim(s, PyIntWhitespace)) <= IntMaxStrDigits
  {
    var t := Trim(s, PyIntWhitespace);
    match SignedDigits(t)
    case Some(n) =>
      if DigitCount(t) > IntMaxStrDigits then Err("ValueError: Exceeds the limit (4300 digits) for integer string conversion")
      else Ok(n)
    case None => Err("ValueError: invalid literal for int() with base 10")
  }

  /**
   * `int(str(n)) == n` for every integer printed with at most
   * `IntMaxStrDigits` digits; a longer one raises.
   */
  lemma PyIntOfIntToString(n: int)
    ensures PyInt(IntToString(n)).Ok? <==> |NatToDigits(Abs(n))| <= IntMaxStrDigits
    ensures PyInt(IntToString(n)).Ok? ==> PyInt(IntToString(n)).value == n
  {
    var t := IntToString(n);
    var digits := NatToDigits(Abs(n));
    assert t[|t| - 1] == digits[|digits| - 1];
    assert !IsSpace(t[0], PyIntWhitespace) && !IsSpace(t[|t| - 1], PyIntWhitespace);
    TrimOfTrimmed(t, PyIntWhitespace);
    SignedDigitsOfIntToString(n);
    assert DigitCount(t) == |digits|;
  }

  /** An ASCII information separator next to the digits makes `int()` raise, though `str.strip()` would remove it. */
  lemma PyIntRejectsInformationSeparator(d: char, sep: char)
    requires IsDigit(d) && '\U{001C}' <= sep <= '\U{001F}'
    ensures PyInt([sep, d]).Err? && PyInt([d, sep]).Err?
  {
    var a, b := [sep, d], [d, sep];
    assert !IsSpace(sep, PyIntWhitespace) && !IsSpace(d, PyIntWhitespace);
    TrimOfTrimmed(a, PyIntWhitespace);
    TrimOfTrimmed(b, PyIntWhitespace);
    assert !IsDigit(a[0]) && !IsDigit(b[1]);
  }

  // ---------------------------------------------------------------------
  // Paths
  // ---------------------------------------------------------------------

  /** Python's `s.rstrip(c)`: the longest prefix of `s` not ending in `c`. */
  function RStrip(s: string, c: char): (t: string)
    ensures |t| <= |s| && t == s[..|t|]
    ensures forall i :: |t| <= i < |s| ==> s[i] == c
    ensures |t| > 0 ==> t[|t| - 1] != c
  {
    if |s| > 0 && s[|s| - 1] == c then RStrip(s[..|s| - 1], c) else s
  }

  /** Python's `s.split(sep)[-1]`: the part of `s` after its last `sep`, or all of `s`. */
  function LastSegment(s: string, sep: char): (t: string)
    ensures |t| <= |s| && t == s[|s| - |t|..]
    ensures forall i :: 0 <= i < |t| ==> t[i] != sep
    ensures |t| < |s| ==> s[|s| - |t| - 1] == sep
  {
    if |s| == 0 || s[|s| - 1] == sep then []
    else LastSegment(s[..|s| - 1], sep) + [s[|s| - 1]]
  }

  /** `n` copies of the character `c`. */
  function Repeat(c: char, n: nat): (s: string)
    ensures |s| == n && forall i :: 0 <= i < n ==> s[i] == c
  {
    if n == 0 then [] else [c] + Repeat(c, n - 1)
  }

  /** Stripping trailing slashes from `p + "/" + d + "//..."` leaves `p + "/" + d` when `d` does not end in a slash. */
  lemma {:induction false} RStripSlashes(body: string, k: nat)
    requires |body| > 0 && body[|body| - 1] != '/'
    ensures RStrip(body + Repeat('/', k), '/') == body
  {
    if k > 0 {
      var s := body + Repeat('/', k);
      assert s[..|s| - 1] == body + Repeat('/', k - 1);
      RStripSlashes(body, k - 1);
    } else {
      assert body + Repeat('/', 0) == body;
    }
  }

  /** The last segment of `p + "/" + d` is `d` when `d` holds no slash. */
  lemma {:induction false} LastSegmentAfterSlash(prefix: string, seg: string)
    requires forall i :: 0 <= i < |seg| ==> seg[i] != '/'
    ensures LastSegment(prefix + "/" + seg, '/') == seg
  {
    var s := prefix + "/" + seg;
    if |seg| > 0 {
      var init := seg[..|seg| - 1];
      assert s[..|s| - 1] == prefix + "/" + init;
      LastSegmentAfterSlash(prefix, init);
      assert seg == init + [seg[|seg| - 1]];
    }
  }
}

=== FILE: user_lists.dfy ===
/**
 * The favourites and team pages. Each loads the user's records only when
 * the logged-in user has a truthy id, then shows them as cards: the
 * favourites page keeps the records marked `favorito`, the team page keeps
 * every record it is given. The records themselves are an input.
 */
module UserLists {
  import opened Wrappers
  import opened Text
  import opened PokemonService
  import opened Auth

  /** A record shown as a card: `Number(codigo)`, its name and image, no types. */
  function Card(r: UserPokemonRecord): (p: Pokemon)
    ensures p.id == StringToNumber(r.codigo)
    ensures p.nome == r.nome && p.imagem == r.imagemUrl && p.tipos == []
  {
    Pokemon(StringToNumber(r.codigo), r.nome, r.imagemUrl, [])
  }

  /** A record whose codigo spells an integer gets that integer as its card id. */
  lemma CardIdFromCodigo(r: UserPokemonRecord, n: int)
    requires r.codigo == IntToString(n)
    ensures Card(r).id == Finite(n)
  {
    StringToNumberOfIntToString(n);
  }

  // ---------------------------------------------------------------------
  // Favourites
  // ---------------------------------------------------------------------

  /** The cards of the favourite records among `rs[from..]`, in order. */
  function FavoritesFrom(rs: seq<UserPokemonRecord>, from: nat): (cards: seq<Pokemon>)
    requires from <= |rs|
    ensures |cards| <= |rs| - from
    decreases |rs| - from
  {
    if from == |rs| then []
    else (if rs[from].favorito then [Card(rs[from])] else []) + FavoritesFrom(rs, from + 1)
  }

  /** The favourites page's list: `filter(r => r.favorito).map(Card)`. */
  function FavoriteCards(rs: seq<UserPokemonRecord>): (cards: seq<Pokemon>)
    ensures |cards| <= |rs|
  {
    FavoritesFrom(rs, 0)
  }

  /** The positions of the favourite records among `rs[from..]`, increasing. */
  function FavoritePositions(rs: seq<UserPokemonRecord>, from: nat): (ps: seq<nat>)
    requires from <= |rs|
    ensures forall k :: 0 <= k < |ps| ==> from <= ps[k] < |rs| && rs[ps[k]].favorito
    ensures forall k, l :: 0 <= k < l < |ps| ==> ps[k] < ps[l]
    ensures forall j :: from <= j < |rs| && rs[j].favorito ==> j in ps
    decreases |rs| - from
  {
    if from == |rs| then []
    else (if rs[from].favorito then [from] else []) + FavoritePositions(rs, from + 1)
  }

  /** Element `k` of `ys` is `f` of the element of `xs` at position `ps[k]`, for every `k`. */
  ghost predicate ImagesAtPositions<T, U>(xs: seq<T>, f: T -> U, ys: seq<U>, ps: seq<nat>) {
    && |ys| == |ps|
    && (forall k :: 0 <= k < |ps| ==> ps[k] < |xs|)
    && (forall k :: 0 <= k < |ps| ==> ys[k] == f(xs[ps[k]]))
  }

  /** Putting one more image in front of its position keeps the correspondence. */
  lemma ImagesAtPositionsCons<T, U>(xs: seq<T>, f: T -> U, tail: seq<U>, tp: seq<nat>, from: nat)
    requires from < |xs| && ImagesAtPositions(xs, f, tail, tp)
    ensures ImagesAtPositions(xs, f, [f(xs[from])] + tail, [from] + tp)
  {
    var ys, ps := [f(xs[from])] + tail, [from] + tp;
    forall k | 1 <= k < |ps|
      ensures ps[k] < |xs| && ys[k] == f(xs[ps[k]])
    {
      assert ys[k] == tail[k - 1] && ps[k] == tp[k - 1];
    }
  }

  lemma {:induction false} FavoritesFromAtPositions(rs: seq<UserPokemonRecord>, from: nat)
    requires from <= |rs|
    ensures ImagesAtPositions(rs, Card, FavoritesFrom(rs, from), FavoritePositions(rs, from))
    decreases |rs| - from
  {
    if from < |rs| {
      FavoritesFromAtPositions(rs, from + 1);
      var tail := FavoritesFrom(rs, from + 1);
      var tp := FavoritePositions(rs, from + 1);
      if rs[from].favorito {
        assert FavoritesFrom(rs, from) == [Card(rs[from])] + tail;
        assert FavoritePositions(rs, from) == [from] + tp;
        ImagesAtPositionsCons(rs, Card, tail, tp, from);
      } else {
        assert FavoritesFrom(rs, from) == tail;
        assert FavoritePositions(rs, from) == tp;
      }
    }
  }

  /**
   * The favourites page shows exactly the favourite records, in their
   * original order: card `k` is the card of the `k`-th favourite record,
   * and every favourite record has its card.
   */
  lemma FavoriteCardsExactly(rs: seq<UserPokemonRecord>)
    ensures var ps := FavoritePositions(rs, 0);
      && |FavoriteCards(rs)| == |ps|
      && (forall k :: 0 <= k < |ps| ==> rs[ps[k]].favorito && FavoriteCards(rs)[k] == Card(rs[ps[k]]))
      && (forall k, l :: 0 <= k < l < |ps| ==> ps[k] < ps[l])
      && (forall j :: 0 <= j < |rs| && rs[j].favorito ==> j in ps)
  {
    FavoritesFromAtPositions(rs, 0);
  }

  /** With no favourite record among `rs[from..]` the list is empty. */
  lemma {:induction false} NoFavoritesNoCards(rs: seq<UserPokemonRecord>, from: nat)
    requires from <= |rs|
    requires forall j :: from <= j < |rs| ==> !rs[j].favorito
    ensures FavoritesFrom(rs, from) == []
    decreases |rs| - from
  {
    if from < |rs| {
      NoFavoritesNoCards(rs, from + 1);
    }
  }

  /** With only favourites among `rs[from..]`, the list is the team page's list of them. */
  lemma {:induction false} AllFavoritesAllCards(rs: seq<UserPokemonRecord>, from: nat)
    requires from <= |rs|
    requires forall j :: from <= j < |rs| ==> rs[j].favorito
    ensures FavoritesFrom(rs, from) == TeamCards(rs[from..])
    decreases |rs| - from
  {
    if from < |rs| {
      AllFavoritesAllCards(rs, from + 1);
      var rest := rs[from..];
      assert rest[1..] == rs[from + 1..];
      assert TeamCards(rest) == [Card(rest[0])] + TeamCards(rest[1..]);
    }
  }

  // ---------------------------------------------------------------------
  // Team
  // ---------------------------------------------------------------------

  /** The team page's list: every record's card, in order, without filtering. */
  function TeamCards(rs: seq<UserPokemonRecord>): (cards: seq<Pokemon>)
    ensures |cards| == |rs|
    ensures forall i :: 0 <= i < |rs| ==> cards[i] == Card(rs[i])
  {
    if |rs| == 0 then [] else [Card(rs[0])] + TeamCards(rs[1..])
  }

  // ---------------------------------------------------------------------
  // Loading gate and logout
  // ---------------------------------------------------------------------

  /** `user?.id` is truthy: the page requests the user's records only then. */
  predicate LoadsRecords(user: Option<User>) {
    user.Some? && user.value.id.Some? && user.value.id.value != 0
  }

  /**
   * Combined with `getLoggedInUser`: the records load exactly when a
   * non-empty token is stored and decodes to a payload with a non-zero
   * `user_id`; so a guest, an undecodable token and a user id of 0 load nothing.
   */
  lemma LoadsOnlyForDecodedUser(st: Storage, decode: string -> Jwt)
    ensures LoadsRecords(GetLoggedInUser(st, decode)) <==>
      HasToken(st) && decode(st[TokenKey]).Payload?
      && decode(st[TokenKey]).userId.Some? && decode(st[TokenKey]).userId.value != 0
    ensures LoadsRecords(GetLoggedInUser(st, decode)) ==> CanActivate(st).allowed
  {
  }

  /** Where a page's logout sends the browser: `navigateByUrl(url, {replaceUrl})`. */
  datatype Navigation = Navigation(url: string, replaceUrl: bool)

  /** A page's `logout()`: the token is removed and the page is replaced by the root route. */
  function PageLogout(st: Storage): (r: (Storage, Navigation))
    ensures GetToken(r.0) == None && !CanActivate(r.0).allowed
    ensures SameOtherKeys(st, r.0)
    ensures r.1 == Navigation("", true)
  {
    (Logout(st), Navigation("", true))
  }
}

=== FILE: user_store.dfy ===
/**
 * The server's per-user records as the toggle sees them: one record per
 * pokemon `codigo`, identified on the server by `idPokemonUsuario`. A
 * toggle reads the record for the card's codigo and then sends the action
 * `ToggleAction` chooses; `Apply` is that action's effect on the records.
 */
module UserStore {
  import opened Wrappers
  import opened PokemonService

  /** One user's records, keyed by pokemon codigo. */
  type Store = map<string, UserPokemonRecord>

  /** Each record sits under its own codigo and record ids are distinct. */
  predicate WellFormed(st: Store) {
    && (forall c :: c in st ==> st[c].codigo == c)
    && (forall c, d :: c in st && d in st && c != d ==> st[c].idPokemonUsuario != st[d].idPokemonUsuario)
  }

  /** No stored record has both flags clear. */
  predicate NoDeadRecords(st: Store) {
    forall c :: c in st ==> st[c].favorito || st[c].grupoBatalha
  }

  /** `id` is not used by any stored record, as for the id the server assigns on creation. */
  predicate FreshId(st: Store, id: int) {
    forall c :: c in st ==> st[c].idPokemonUsuario != id
  }

  /** A flag of the record under `c`, reading an absent record as having both flags clear. */
  predicate StoredFlag(st: Store, c: string, isEquipe: bool) {
    c in st && FlagOf(st[c], isEquipe)
  }

  /** `getUserPokemonRecord(codigo)` against the store. */
  function Lookup(st: Store, c: string): (r: Option<UserPokemonRecord>)
    ensures r.Some? <==> c in st
    ensures r.Some? ==> r.value == st[c]
  {
    if c in st then Some(st[c]) else None
  }

  /** A created record: flags missing from the body take the model's default, false. */
  function Created(p: Payload, id: int): UserPokemonRecord {
    UserPokemonRecord(id, p.codigo, p.grupoBatalha.GetOr(false), p.favorito.GetOr(false), p.nome, p.imagemUrl)
  }

  /** A partial update: the body's fields replace the record's, flags only where present. */
  function Patched(r: UserPokemonRecord, p: Payload): UserPokemonRecord {
    r.(codigo := p.codigo, nome := p.nome, imagemUrl := p.imagemUrl,
       grupoBatalha := p.grupoBatalha.GetOr(r.grupoBatalha),
       favorito := p.favorito.GetOr(r.favorito))
  }

  /**
   * The effect of an action on the records: a POST adds a record under
   * its codigo with the id the server assigns and the body's fields, flags
   * missing from the body being false; a PATCH overwrites the display
   * fields of the record with that id and the flags the body carries; a
   * DELETE removes it. Every other record is untouched.
   */
  function Apply(st: Store, a: Action, freshId: int): (st': Store)
    ensures a.Post? ==> a.body.codigo in st' && st'[a.body.codigo].idPokemonUsuario == freshId
    ensures a.Post? ==>
      var r := st'[a.body.codigo];
      && r.codigo == a.body.codigo && r.nome == a.body.nome && r.imagemUrl == a.body.imagemUrl
      && r.favorito == a.body.favorito.GetOr(false) && r.grupoBatalha == a.body.grupoBatalha.GetOr(false)
    ensures a.Post? ==> forall k :: k != a.body.codigo ==> (k in st' <==> k in st) && (k in st ==> st'[k] == st[k])
    ensures a.Patch? ==> st'.Keys == st.Keys
    ensures a.Patch? ==> forall c :: c in st && st[c].idPokemonUsuario == a.id ==>
      && st'[c].idPokemonUsuario == a.id
      && st'[c].codigo == a.body.codigo && st'[c].nome == a.body.nome && st'[c].imagemUrl == a.body.imagemUrl
      && st'[c].favorito == a.body.favorito.GetOr(st[c].favorito)
      && st'[c].grupoBatalha == a.body.grupoBatalha.GetOr(st[c].grupoBatalha)
    ensures a.Delete? ==> forall c :: c in st' <==> c in st && st[c].idPokemonUsuario != a.id
    ensures !a.Post? ==> forall c :: c in st' && st[c].idPokemonUsuario != a.id ==> st'[c] == st[c]
  {
    match a
    case Post(p) => st[p.codigo := Created(p, freshId)]
    case Patch(id, p) => map c | c in st :: if st[c].idPokemonUsuario == id then Patched(st[c], p) else st[c]
    case Delete(id) => map c | c in st && st[c].idPokemonUsuario != id :: st[c]
  }

  /**
   * Toggle the team flag (`isEquipe`) or the favourite flag of the pokemon
   * in `data`: read its record, then apply the action the service chooses.
   * The targeted flag flips, the other flag is kept, the record exists
   * exactly when one of its flags is set, its display fields come from
   * `data`, and every other pokemon's record is unchanged.
   */
  function Toggle(st: Store, data: UserPokemonData, isEquipe: bool, freshId: int): (st': Store)
    requires WellFormed(st) && FreshId(st, freshId)
    ensures WellFormed(st')
    ensures StoredFlag(st', data.codigo, isEquipe) == !StoredFlag(st, data.codigo, isEquipe)
    ensures StoredFlag(st', data.codigo, !isEquipe) == StoredFlag(st, data.codigo, !isEquipe)
    ensures data.codigo in st' <==> StoredFlag(st', data.codigo, true) || StoredFlag(st', data.codigo, false)
    ensures data.codigo in st' ==> st'[data.codigo].nome == data.nome && st'[data.codigo].imagemUrl == data.imagemUrl
    ensures forall k :: k != data.codigo ==> (k in st' <==> k in st) && (k in st ==> st'[k] == st[k])
  {
    var c := data.codigo;
    var a := ToggleAction(Lookup(st, c), data, isEquipe);
    var st' := Apply(st, a, freshId);
    assert c in st ==> a.Patch? || a.Delete?;
    assert c in st ==> forall k :: k in st && k != c ==> st[k].idPokemonUsuario != a.id;
    st'
  }

  /** A toggle never leaves a record with both flags clear behind. */
  lemma ToggleKeepsNoDeadRecords(st: Store, data: UserPokemonData, isEquipe: bool, freshId: int)
    requires WellFormed(st) && FreshId(st, freshId) && NoDeadRecords(st)
    ensures NoDeadRecords(Toggle(st, data, isEquipe, freshId))
  {
    var st' := Toggle(st, data, isEquipe, freshId);
    forall k | k in st'
      ensures st'[k].favorito || st'[k].grupoBatalha
    {
      if k == data.codigo {
        assert StoredFlag(st', k, true) || StoredFlag(st', k, false);
      }
    }
  }

  /**
   * Toggling the same flag twice, re-reading the record in between,
   * restores that pokemon's flags, or its absence, and leaves every other
   * pokemon's record as it was.
   */
  lemma ToggleTwiceRestores(st: Store, data: UserPokemonData, isEquipe: bool, id1: int, id2: int)
    requires WellFormed(st) && NoDeadRecords(st) && FreshId(st, id1)
    requires FreshId(Toggle(st, data, isEquipe, id1), id2)
    ensures var st2 := Toggle(Toggle(st, data, isEquipe, id1), data, isEquipe, id2);
      && (data.codigo in st2 <==> data.codigo in st)
      && (data.codigo in st ==>
            st2[data.codigo].favorito == st[data.codigo].favorito
            && st2[data.codigo].grupoBatalha == st[data.codigo].grupoBatalha)
      && forall k :: k != data.codigo ==> (k in st2 <==> k in st) && (k in st ==> st2[k] == st[k])
  {
    var c := data.codigo;
    var st1 := Toggle(st, data, isEquipe, id1);
    var st2 := Toggle(st1, data, isEquipe, id2);
    assert StoredFlag(st2, c, isEquipe) == StoredFlag(st, c, isEquipe);
    assert StoredFlag(st2, c, !isEquipe) == StoredFlag(st, c, !isEquipe);
    assert c in st ==> StoredFlag(st, c, true) || StoredFlag(st, c, false);
  }

  /** Without the no-dead-records invariant the round trip fails: a stored all-clear record disappears. */
  lemma ToggleTwiceDropsDeadRecord(st: Store, data: UserPokemonData, isEquipe: bool, id1: int, id2: int)
    requires WellFormed(st) && FreshId(st, id1)
    requires FreshId(Toggle(st, data, isEquipe, id1), id2)
    requires data.codigo in st && !st[data.codigo].favorito && !st[data.codigo].grupoBatalha
    ensures data.codigo !in Toggle(Toggle(st, data, isEquipe, id1), data, isEquipe, id2)
  {
    var c := data.codigo;
    var st1 := Toggle(st, data, isEquipe, id1);
    assert StoredFlag(st1, c, isEquipe) && !StoredFlag(st1, c, !isEquipe);
  }

  /**
   * When the server lists exactly the stored records, in any order, the
   * service's first-match lookup finds the record stored under the codigo.
   */
  lemma FindRecordAgreesWithStore(st: Store, records: seq<UserPokemonRecord>, c: string)
    requires WellFormed(st)
    requires forall i :: 0 <= i < |records| ==> records[i].codigo in st && st[records[i].codigo] == records[i]
    requires forall k :: k in st ==> exists i :: 0 <= i < |records| && records[i] == st[k]
    ensures FindRecord(records, c) == Lookup(st, c)
  {
    var r := FindRecord(records, c);
    if c in st {
      var i :| 0 <= i < |records| && records[i] == st[c];
      assert records[i].codigo == c;
    }
  }
}

=== FILE: views.dfy ===
/**
 * The Django REST views: the PokeAPI proxy's `retrieve` projection and
 * `types` listing, the permission rule of each view set, and owner
 * assignment when a per-user record is created. The upstream HTTP call is
 * an input: its decoded JSON, or the request error it raised.
 */
module Views {
  import opened Wrappers
  import opened Text
  import opened PokemonService

  const PokeApiBaseUrl: string := "https://pokeapi.co/api/v2"

  /** What `requests.get(...).json()` produced, or the `RequestException` it raised. */
  datatype Fetched<T> = Fetched(data: T) | RequestError(message: string)

  /**
   * A view's reply: 200 with a body, 400 with `{"error": ...}` for a failed
   * upstream request, or 500 for an exception the view does not catch.
   */
  datatype ApiResponse<T> = Success(body: T) | BadRequest(error: string) | ServerError(error: string)

  // ---------------------------------------------------------------------
  // PokemonAPIViewSet.retrieve
  // ---------------------------------------------------------------------

  /** One entry of PokeAPI's `types` list: `{"slot": ..., "type": {"name": ..., "url": ...}}`. */
  datatype TypeSlot = TypeSlot(slot: int, typeName: string, typeUrl: string)

  /** The fields of a PokeAPI pokemon that the view reads; `sprites` is passed on as it is. */
  datatype PokeApiPokemon = PokeApiPokemon(name: string, id: int, types: seq<TypeSlot>, sprites: string)

  /** The view's pokemon body. */
  datatype PokemonData = PokemonData(nome: string, id: int, tipos: seq<string>, sprites: string)

  /** The upstream URL for `retrieve(pk)`: the key is lower-cased, so it does not matter how it was capitalised. */
  function RetrieveUrl(pk: string): (url: string)
    ensures |url| == |PokeApiBaseUrl + "/pokemon/"| + |pk|
    ensures url[..|PokeApiBaseUrl + "/pokemon/"|] == PokeApiBaseUrl + "/pokemon/"
    ensures forall i :: 0 <= i < |pk| ==> url[|PokeApiBaseUrl + "/pokemon/"| + i] == LowerChar(pk[i])
  {
    PokeApiBaseUrl + "/pokemon/" + Lower(pk)
  }

  /** Keys that differ only in ASCII letter case fetch the same upstream URL. */
  lemma RetrieveUrlIgnoresCase(a: string, b: string)
    requires Lower(a) == Lower(b)
    ensures RetrieveUrl(a) == RetrieveUrl(b)
  {
  }

  function TypeNames(ts: seq<TypeSlot>): (names: seq<string>)
    ensures |names| == |ts|
    ensures forall i :: 0 <= i < |ts| ==> names[i] == ts[i].typeName
  {
    if |ts| == 0 then [] else [ts[0].typeName] + TypeNames(ts[1..])
  }

  /**
   * `retrieve(pk)`: the upstream pokemon is fetched from `RetrieveUrl(pk)`
   * (`fetch` stands for the HTTP call); a failed request is a 400 with its
   * message; otherwise `name` becomes `nome`, `id` and `sprites` are
   * copied and `tipos` lists the type names in PokeAPI's order.
   */
  function Retrieve(pk: string, fetch: string -> Fetched<PokeApiPokemon>): (r: ApiResponse<PokemonData>)
    ensures fetch(RetrieveUrl(pk)).RequestError? ==> r == BadRequest(fetch(RetrieveUrl(pk)).message)
    ensures fetch(RetrieveUrl(pk)).Fetched? ==>
      var data := fetch(RetrieveUrl(pk)).data;
      && r.Success?
      && r.body.nome == data.name && r.body.id == data.id
      && r.body.sprites == data.sprites
      && |r.body.tipos| == |data.types|
      && forall i :: 0 <= i < |data.types| ==> r.body.tipos[i] == data.types[i].typeName
  {
    match fetch(RetrieveUrl(pk))
    case RequestError(m) => BadRequest(m)
    case Fetched(data) => Success(PokemonData(data.name, data.id, TypeNames(data.types), data.sprites))
  }

  // ---------------------------------------------------------------------
  // PokemonAPIViewSet.tipos
  // ---------------------------------------------------------------------

  /** An entry of PokeAPI's `results` list: `{"name": ..., "url": ...}`. */
  datatype NamedResource = NamedResource(name: string, url: string)

  /** An entry of the view's `tipos` list. */
  datatype Tipo = Tipo(id: int, name: string)

  /** `int(url.rstrip("/").split("/")[-1])`: the id in a resource URL's last segment. */
  function TypeId(url: string): (r: Result<int>)
    ensures (forall i :: 0 <= i < |url| ==> url[i] == '/') ==> r.Err?
  {
    PyInt(LastSegment(RStrip(url, '/'), '/'))
  }

  /**
   * A PokeAPI resource URL `.../<n>/` (any number of trailing slashes)
   * yields `n`, provided `n` has no more digits than `int()` converts.
   */
  lemma TypeIdOfResourceUrl(prefix: string, n: nat, slashes: nat)
    ensures TypeId(prefix + "/" + NatToDigits(n) + Repeat('/', slashes)).Ok? <==> |NatToDigits(n)| <= IntMaxStrDigits
    ensures TypeId(prefix + "/" + NatToDigits(n) + Repeat('/', slashes)).Ok? ==>
      TypeId(prefix + "/" + NatToDigits(n) + Repeat('/', slashes)).value == n
  {
    var digits := NatToDigits(n);
    RStripSlashes(prefix + "/" + digits, slashes);
    LastSegmentAfterSlash(prefix, digits);
    assert digits == IntToString(n);
    PyIntOfIntToString(n);
  }

  /** `parse` applied to each result's URL, in order. */
  function ParseUrls(results: seq<NamedResource>, parse: string -> Result<int>): (ids: seq<Result<int>>)
    ensures |ids| == |results|
    ensures forall i :: 0 <= i < |results| ==> ids[i] == parse(results[i].url)
  {
    if |results| == 0 then [] else [parse(results[0].url)] + ParseUrls(results[1..], parse)
  }

  /** Pairs each name with its parsed id; the first failed parse fails the whole list. */
  function Collect(results: seq<NamedResource>, ids: seq<Result<int>>): (r: Result<seq<Tipo>>)
    requires |ids| == |results|
    ensures r.Ok? <==> forall i :: 0 <= i < |ids| ==> ids[i].Ok?
    ensures r.Ok? ==>
      && |r.value| == |results|
      && forall i :: 0 <= i < |results| ==> r.value[i] == Tipo(ids[i].value, results[i].name)
  {
    if |results| == 0 then Ok([])
    else if ids[0].Err? then Err(ids[0].error)
    else
      match Collect(results[1..], ids[1..])
      case Err(e) => Err(e)
      case Ok(rest) => Ok([Tipo(ids[0].value, results[0].name)] + rest)
  }

  /**
   * The `tipos` comprehension: one entry per result, in order, with the
   * name copied and the id taken from the URL. A URL whose id does not
   * parse raises, and the whole comprehension with it.
   */
  function Tipos(results: seq<NamedResource>): (r: Result<seq<Tipo>>)
    ensures r.Ok? <==> forall i :: 0 <= i < |results| ==> TypeId(results[i].url).Ok?
    ensures r.Ok? ==>
      && |r.value| == |results|
      && forall i :: 0 <= i < |results| ==>
           r.value[i].name == results[i].name && Ok(r.value[i].id) == TypeId(results[i].url)
  {
    Collect(results, ParseUrls(results, TypeId))
  }

  /**
   * Results whose URLs are PokeAPI type resources `<prefix>/<n>/` succeed
   * exactly when every id is within `int()`'s digit cap, and then yield
   * exactly those ids, names kept.
   */
  lemma TiposOfResourceUrls(results: seq<NamedResource>, prefix: string, ids: seq<nat>)
    requires |ids| == |results|
    requires forall i :: 0 <= i < |results| ==> results[i].url == prefix + "/" + NatToDigits(ids[i]) + "/"
    ensures Tipos(results).Ok? <==> forall i :: 0 <= i < |ids| ==> |NatToDigits(ids[i])| <= IntMaxStrDigits
    ensures Tipos(results).Ok? ==>
      forall i :: 0 <= i < |results| ==> Tipos(results).value[i] == Tipo(ids[i], results[i].name)
  {
    forall i | 0 <= i < |results|
      ensures TypeId(results[i].url).Ok? <==> |NatToDigits(ids[i])| <= IntMaxStrDigits
      ensures TypeId(results[i].url).Ok? ==> TypeId(results[i].url).value == ids[i]
    {
      assert Repeat('/', 1) == "/";
      TypeIdOfResourceUrl(prefix, ids[i], 1);
    }
  }

  /** The `types` action: a failed upstream request is a 400; an unparsable id escapes as a 500. */
  function TiposView(fetched: Fetched<seq<NamedResource>>): (r: ApiResponse<seq<Tipo>>)
    ensures fetched.RequestError? ==> r == BadRequest(fetched.message)
    ensures fetched.Fetched? ==> (r.Success? <==> Tipos(fetched.data).Ok?)
    ensures fetched.Fetched? && !r.Success? ==> r.ServerError?
  {
    match fetched
    case RequestError(m) => BadRequest(m)
    case Fetched(results) =>
      match Tipos(results)
      case Ok(ts) => Success(ts)
      case Err(e) => ServerError(e)
  }

  // ---------------------------------------------------------------------
  // Permissions
  // ---------------------------------------------------------------------

  /** The registered view sets. */
  datatype ViewSet = PokemonApi | Usuario | TipoPokemon | PokemonUsuario

  datatype Permission = AllowAny | IsAuthenticated

  /**
   * The permission classes a view set applies to an action (`None` when
   * the router found no action). `PokemonAPIViewSet` declares none and so
   * gets the framework default, AllowAny.
   */
  function Permissions(vs: ViewSet, action: Option<string>): (ps: seq<Permission>)
    ensures |ps| == 1
  {
    match vs
    case PokemonApi => [AllowAny]
    case Usuario => if action == Some("create") || action == Some("list") then [AllowAny] else [IsAuthenticated]
    case TipoPokemon => [IsAuthenticated]
    case PokemonUsuario => [IsAuthenticated]
  }

  /** A request passes when every permission of the action admits it. */
  predicate Allowed(vs: ViewSet, action: Option<string>, authenticated: bool) {
    forall i :: 0 <= i < |Permissions(vs, action)| ==> Permissions(vs, action)[i] == AllowAny || authenticated
  }

  /**
   * An anonymous request gets through only to the PokeAPI proxy and to
   * the user sign-up (`create`) and user `list` actions; an authenticated
   * one gets through everywhere.
   */
  lemma AnonymousAccess(vs: ViewSet, action: Option<string>)
    ensures Allowed(vs, action, true)
    ensures Allowed(vs, action, false) <==>
      vs == PokemonApi || (vs == Usuario && (action == Some("create") || action == Some("list")))
  {
    var ps := Permissions(vs, action);
    assert Allowed(vs, action, false) <==> ps[0] == AllowAny;
  }

  // ---------------------------------------------------------------------
  // PokemonUsuarioViewSet.perform_create
  // ---------------------------------------------------------------------

  /** A create request's validated fields; an owner sent by the client is read-only and dropped. */
  datatype PokemonUsuarioInput = PokemonUsuarioInput(
    codigo: string,
    nome: string,
    imagemUrl: Option<string>,
    grupoBatalha: Option<bool>,
    favorito: Option<bool>,
    clientOwner: Option<int>)

  /** A stored `PokemonUsuario` row. */
  datatype PokemonUsuarioRow = PokemonUsuarioRow(
    idPokemonUsuario: int,
    idUsuario: int,
    codigo: string,
    nome: string,
    imagemUrl: Option<string>,
    grupoBatalha: bool,
    favorito: bool)

  /**
   * `perform_create`: the row belongs to the requesting user whatever the
   * body says; missing flags take the model default `False`; the row id is
   * the one the database assigns.
   */
  function PerformCreate(input: PokemonUsuarioInput, requestUser: int, newId: int): (row: PokemonUsuarioRow)
    ensures row.idUsuario == requestUser
    ensures row.idPokemonUsuario == newId
    ensures row.codigo == input.codigo && row.nome == input.nome && row.imagemUrl == input.imagemUrl
    ensures row.grupoBatalha <==> input.grupoBatalha == Some(true)
    ensures row.favorito <==> input.favorito == Some(true)
  {
    PokemonUsuarioRow(newId, requestUser, input.codigo, input.nome, input.imagemUrl,
                      input.grupoBatalha.GetOr(false), input.favorito.GetOr(false))
  }

  // ---------------------------------------------------------------------
  // PokemonUsuarioViewSet.list
  // ---------------------------------------------------------------------

  /**
   * The per-user records the view set lists: its queryset is every row of
   * the table, whoever owns it, and no filter backend narrows it, so a
   * `?codigo=` query is ignored as well.
   */
  function ListRowsAsWritten(rows: seq<PokemonUsuarioRow>, requestUser: int): (listed: seq<PokemonUsuarioRow>)
    ensures |listed| == |rows|
    ensures forall i :: 0 <= i < |rows| ==> rows[i] in listed
  {
    rows
  }

  /** The listing scoped to the requesting user, as a per-user endpoint is meant to be. */
  function ListOwnRows(rows: seq<PokemonUsuarioRow>, requestUser: int): (listed: seq<PokemonUsuarioRow>)
    ensures |listed| <= |rows|
    ensures forall i :: 0 <= i < |listed| ==> listed[i].idUsuario == requestUser && listed[i] in rows
    ensures forall i :: 0 <= i < |rows| && rows[i].idUsuario == requestUser ==> rows[i] in listed
  {
    if |rows| == 0 then []
    else (if rows[0].idUsuario == requestUser then [rows[0]] else []) + ListOwnRows(rows[1..], requestUser)
  }

  /** A row as the browser reads it; a missing image URL reads as the empty string. */
  function AsRecord(row: PokemonUsuarioRow): (r: UserPokemonRecord)
    ensures r.idPokemonUsuario == row.idPokemonUsuario && r.codigo == row.codigo
    ensures r.favorito == row.favorito && r.grupoBatalha == row.grupoBatalha
    ensures r.nome == row.nome && r.imagemUrl == row.imagemUrl.GetOr("")
  {
    UserPokemonRecord(row.idPokemonUsuario, row.codigo, row.grupoBatalha, row.favorito, row.nome,
                      row.imagemUrl.GetOr(""))
  }

  function AsRecords(rows: seq<PokemonUsuarioRow>): (rs: seq<UserPokemonRecord>)
    ensures |rs| == |rows|
    ensures forall i :: 0 <= i < |rows| ==> rs[i] == AsRecord(rows[i])
  {
    if |rows| == 0 then [] else [AsRecord(rows[0])] + AsRecords(rows[1..])
  }

  /**
   * With the listing as written, an authenticated user 1 whose client runs
   * the browser's lookup for codigo "25" finds the record user 2 owns, and
   * the favourite toggle then deletes that user's record.
   */
  lemma LookupFindsOtherUsersRecord()
    ensures var rows := [PokemonUsuarioRow(7, 2, "25", "pikachu", None, false, true)];
      && FindRecord(AsRecords(ListRowsAsWritten(rows, 1)), "25") == Some(AsRecord(rows[0]))
      && rows[0].idUsuario != 1
      && ToggleAction(FindRecord(AsRecords(ListRowsAsWritten(rows, 1)), "25"),
                      UserPokemonData("25", "pikachu", "", None, None), false) == Delete(7)
  {
    var rows := [PokemonUsuarioRow(7, 2, "25", "pikachu", None, false, true)];
    assert AsRecords(rows) == [AsRecord(rows[0])];
  }

  /** With the scoped listing, whatever the lookup finds is a row the requesting user owns. */
  lemma LookupFindsOwnRecord(rows: seq<PokemonUsuarioRow>, requestUser: int, c: string)
    ensures var found := FindRecord(AsRecords(ListOwnRows(rows, requestUser)), c);
      found.Some? ==>
        exists i :: 0 <= i < |rows| && rows[i].idUsuario == requestUser && AsRecord(rows[i]) == found.value
  {
    var own := ListOwnRows(rows, requestUser);
    var found := FindRecord(AsRecords(own), c);
    if found.Some? {
      var k :| 0 <= k < |own| && AsRecords(own)[k] == found.value;
      var i :| 0 <= i < |rows| && rows[i] == own[k];
    }
  }
}

=== FILE: wrappers.dfy ===
/** Optional values and results with an error, used across the model. */
module Wrappers {

  /** A value that may be absent: JavaScript's `null`/`undefined`, Python's `None`. */
  datatype Option<+T> = None | Some(value: T) {

    /** The value, or `default` when absent. */
    function GetOr(default: T): T {
      match this
      case Some(v) => v
      case None => default
    }
  }

  /** The outcome of an operation that can raise: a value, or the error it raised. */
  datatype Result<+T> = Ok(value: T) | Err(error: string)
}
